=== FILE: README.md ===
# lightning-driver, modelled in Dafny

lightning-driver gives three Lightning node backends one client contract: LND over gRPC,
LND over REST and Core Lightning (CLN) over REST. The contract has six operations:
`get_info`, `create_invoice`, `get_balance`, `list_invoices`, `decode_invoice` and
`pay_invoice`. A small HTTP API sits in front of the driver and puts a password login
before the node.

This project models the logic between the wire and the contract:

- how each adapter turns a node's answer into contract values: defaults, renamed fields,
  optional fields, the settled-to-state mapping, the sat-to-msat product and error
  short-circuits;
- how the adapters validate and normalize their credentials: the macaroon and the
  certificate as Base16 (section 8 of RFC 4648), trailing `/` on host URLs, a blank
  certificate path;
- how the factory picks exactly one backend from the configuration;
- the API server's session gateway and its start-up rules.

Network calls are not modelled. Each answer a node would give is an input of the
function that reads it. The same holds for the outcome of a TLS set-up, a gRPC channel or
a file read.

Modules, one per source file or shared concern:

| module | file | models |
|---|---|---|
| `Wrappers` | wrappers.dfy | `Option` and `Result` |
| `Json` | json.dfy | serde_json's `Value` and the accessors the adapters use (`v["k"]`, `get`, `as_str`, `as_u64`, `as_bool`, `as_array`); the shape of one HTTP request |
| `Text` | text.dfy | Rust's `trim`, `trim_end_matches`, decimal `Display` and `u16` parsing |
| `Hex` | hex.dfy | the `hex` crate's `decode` and `encode` |
| `Client` | client.dfy | the contract types of `lib.rs`, the error values and the six operations |
| `Config` | config.dfy | `config.rs` and its derived deserializer |
| `LndRest`, `LndGrpc`, `Cln` | lnd_rest.dfy, lnd_grpc.dfy, cln.dfy | the three adapters |
| `Factory` | factory.dfy | `connect_from_config` |
| `ApiServer` | api_server.dfy | `api-server/src/main.rs`: the `SessionGateway` class over the sessions clients present, the start-up rules and the session key |

`list_invoices` builds its vector in a loop, so it is a method with a loop. The session
state changes with each login and logout, so it is a class whose methods state the new
state. Everything else is a function.

Facts about the code that the model keeps:

- The gRPC and CLN adapters implement only `get_info` and `create_invoice`. There is no
  numeric invoice-state mapping, no CLN balance aggregation, and no gRPC or CLN
  balance, listing, decoding or payment.
- The CLN adapter ignores the caller's label.
- Sessions live in private cookies, encrypted and authenticated (`CookieSessionStore`
  with actix-session's default content security). The gateway's map stands for the
  cookie each client presents, and logout tells the client to drop it.

## Model

| member | source | states |
|---|---|---|
| `Json.Index` | lightning-client/src/lnd_rest.rs:61-67 | `v["k"]` is the member under `k` when `v` is an object holding it, and `Null` otherwise |
| `Json.Member` | api-server/src/main.rs:160-162 | `get("k")` finds exactly the members an object holds, and agrees with `v["k"]` on them |
| `Json.AsStr` | lightning-client/src/lnd_rest.rs:145 | `as_str` gives a value exactly for a string, and that string |
| `Json.AsU64` | lightning-client/src/lnd_rest.rs:146 | `as_u64` gives a value exactly for an integer from 0 to 2^64 - 1, and that integer |
| `Json.AsBool` | lightning-client/src/lnd_rest.rs:147 | `as_bool` gives a value exactly for a boolean, and that boolean |
| `Json.AsArray` | lightning-client/src/lnd_rest.rs:142 | `as_array` gives a value exactly for an array, and its elements |
| `Hex.Encode` | lightning-client/src/lnd_grpc.rs:20-23 | two lower-case hex digits per byte, high nibble first, so the text is twice as long as the bytes |
| `Hex.Decode` | lightning-client/src/lnd_rest.rs:23 | succeeds exactly for an even number of hex digits of either case; an odd length is reported before any character is looked at; otherwise the first non-digit is reported with its position and every earlier character is a digit |
| `Hex.DecodeEncode` | lightning-client/src/lnd_grpc.rs:19-24 | decoding what was encoded gives back the same bytes |
| `Hex.EncodeDecode` | lightning-client/src/lnd_rest.rs:23 | encoding what was decoded gives the input with `A`-`F` lowered |
| `Hex.Normalize` | lightning-client/src/lnd_rest.rs:23 | `encode(decode(s))` succeeds iff `s` is hex and fails with the decoder's own error; on success it is the lower-cased input and names the same bytes |
| `Hex.NormalizeIdempotent` | lightning-client/src/lnd_rest.rs:23 | normalizing a normalized credential changes nothing |
| `Text.Trim` | lightning-client/src/lnd_rest.rs:17 | the result is the slice of the input left once the leading and trailing whitespace is cut: only whitespace lies before and after it in the input, and it neither starts nor ends with whitespace |
| `Text.IsBlank` | lightning-client/src/lnd_grpc.rs:17 | `trim().is_empty()` holds exactly when every character is whitespace |
| `Text.BlankIffAllWhitespace` | lightning-client/src/lnd_rest.rs:17-20 | `trim().is_empty()` holds exactly when every character is whitespace |
| `Text.TrimIdempotent` | lightning-client/src/lnd_rest.rs:17 | trimming a trimmed path changes nothing |
| `Text.TrimEndMatches` | lightning-client/src/lnd_rest.rs:41 | the result is a prefix of the input that does not end in the character, and only that character was cut off |
| `Text.TrimEndMatchesUnique` | lightning-client/src/cln.rs:13 | those three properties determine the trimmed URL completely |
| `Text.TrimEndMatchesIdempotent` | lightning-client/src/cln.rs:13 | stripping trailing `/` twice equals stripping once |
| `Text.NatToDecimal` | lightning-client/src/lnd_rest.rs:127-131 | a number is written as a non-empty string of digits without a leading zero |
| `Text.DecimalRoundTrip` | lightning-client/src/lnd_rest.rs:127-131 | the digits written read back as the number |
| `Text.CanonicalDigits` | api-server/src/main.rs:179 | a non-empty digit string without a leading zero is the decimal text of its own value |
| `Text.IntToDecimal` | lightning-client/src/cln.rs:43 | a timestamp is written as its decimal digits, with a `-` exactly before a negative one, and the digits read back as its magnitude |
| `Text.IntToDecimalInjective` | lightning-client/src/cln.rs:43 | different timestamps are written differently |
| `Text.ParseU16` | api-server/src/main.rs:175-177 | with one leading `+` removed, a port parses exactly when what is left is a non-empty run of ASCII digits, leading zeros allowed, whose value is below 65536; the result is that value; no space and no sign `-` |
| `Text.ParseU16Decimal` | api-server/src/main.rs:175-178 | every port written in decimal, with or without `+`, parses back to itself |
| `Client.WrappingMul` | lightning-client/src/lnd_rest.rs:173 | the `u64` product equals the exact product whenever that fits in 64 bits |
| `LndRest.New` | lightning-client/src/lnd_rest.rs:16-45 | a blank certificate path fails with "cert_path is required" before the macaroon is examined; a non-hex macaroon fails with the hex error; success needs hex, a path and a working TLS set-up; the stored URL has its trailing `/` stripped, the macaroon is lower-case hex and the path is trimmed |
| `LndRest.NewNormalizes` | lightning-client/src/lnd_rest.rs:16-45 | the stored macaroon is canonical and names the configured bytes; the stored URL does not end in `/` |
| `LndRest.Requests` | lightning-client/src/lnd_rest.rs:51-190 | each operation sends one request (two for the balance); every request carries the macaroon; exactly the POSTs carry a body; each operation's method and path (`/v1/getinfo`, `/v1/invoices` with a body of exactly the keys `value_msat` and `memo`, `/v1/balance/wallet` then `/v1/balance/channels`, `/v1/invoices?num_max_invoices=`, `/v1/payreq`, `/v1/sendpaymentsync`) under the base URL; decode and pay send the bolt11 unchanged as `pay_req` and `payment_request` |
| `LndRest.CreateInvoiceIgnoresLabel` | lightning-client/src/lnd_rest.rs:70-79 | the label has no effect on the request; the amount goes unchanged as `value_msat`; the memo is the description or "rust" |
| `LndRest.ListInvoicesAsksForLimit` | lightning-client/src/lnd_rest.rs:126-131 | the listing URL asks for `limit` invoices, or 10 without one |
| `LndRest.GetInfo` | lightning-client/src/lnd_rest.rs:51-68 | a failed request is passed on; alias and identity key are copied when they are strings, otherwise "LND" and "unknown" |
| `LndRest.CreateInvoiceReply` | lightning-client/src/lnd_rest.rs:91-94 | the answer's `payment_request` string, or the error "no payment_request" |
| `LndRest.GetBalance` | lightning-client/src/lnd_rest.rs:97-124 | the wallet answer is read first and its failure wins; `confirmed_balance` and `local_balance` are copied unconverted, 0 when missing or not a `u64` |
| `LndRest.BalanceKeepsUnits` | lightning-client/src/lnd_rest.rs:107-123 | any balance the two endpoints report comes back unchanged, sat as sat and msat as msat |
| `LndRest.InvoiceOf` | lightning-client/src/lnd_rest.rs:144-154 | state is "paid" exactly when `settled` is `true`, otherwise "unpaid"; an empty or missing memo gives no description; hash, amount and bolt11 are read with their defaults |
| `LndRest.InvoiceRoundTrip` | lightning-client/src/lnd_rest.rs:144-154 | every invoice this backend can report survives the trip through its JSON form |
| `LndRest.ListInvoices` | lightning-client/src/lnd_rest.rs:141-157 | one invoice per element of `invoices`, in array order; an empty list when `invoices` is not an array; a failed request is passed on |
| `LndRest.DecodeInvoice` | lightning-client/src/lnd_rest.rs:172-181 | no amount exactly when `num_satoshis` is 0 or missing, otherwise sat × 1000 when that fits; description and payee copied when they are strings |
| `LndRest.DecodedAmountExact` | lightning-client/src/lnd_rest.rs:172-173 | every amount up to the 2.1e15-sat supply comes back as an exact multiple of 1000 that divides back to the satoshi |
| `LndRest.PayInvoiceAsWritten` | lightning-client/src/lnd_rest.rs:196-198 | any string under `payment_error`, the empty one included, fails with "Payment failed: " and that string before hash or amount are read |
| `LndRest.PayInvoice` | lightning-client/src/lnd_rest.rs:196-208 | corrected: a non-empty string under `payment_error` fails the payment with its text; anything else there (missing, null, empty, not a string) reads the payment |
| `LndRest.CorrectionOnlyForEmptyError` | lightning-client/src/lnd_rest.rs:196-198 | the correction changes only answers whose `payment_error` is the empty string |
| `LndRest.PaymentOf` | lightning-client/src/lnd_rest.rs:200-208 | a missing hash fails with "no payment_hash", then a missing amount with "no amount_msat"; with both present the payment succeeds with them, and the fee is optional |
| `LndRest.EmptyPaymentErrorIsSuccess` | lightning-client/src/lnd_rest.rs:196-208 | a successful payment reads back exactly whether the error is absent or empty; as written, the empty error turns it into a failure |
| `LndGrpc.CertArg` | lightning-client/src/lnd_grpc.rs:17-24 | a blank certificate is passed as ""; any other is decoded untrimmed and re-encoded lower-case, twice as long as its bytes and decoding back to them |
| `LndGrpc.Connect` | lightning-client/src/lnd_grpc.rs:14-31 | the macaroon is checked first ("Invalid macaroon hex: " and the hex error), then the certificate, then the channel ("LND gRPC connect failed: "); on success the macaroon is lower-case hex and the address is unchanged |
| `LndGrpc.PaddedCertRefused` | lightning-client/src/lnd_grpc.rs:17-20 | a non-blank certificate carrying whitespace is refused, with the hex error at or before the whitespace |
| `LndGrpc.ConnectCanonical` | lightning-client/src/lnd_grpc.rs:15-26 | the credentials handed to the channel are canonical and name the configured bytes |
| `LndGrpc.GetInfo` | lightning-client/src/lnd_grpc.rs:37-51 | without the feature: "lnd-grpc feature not enabled"; otherwise alias and identity key copied unchanged, or the call's error passed on |
| `LndGrpc.AsI64` | lightning-client/src/lnd_grpc.rs:57 | `msat as i64` keeps the 64 bits: equal modulo 2^64, unchanged up to `i64::MAX`, negative above |
| `LndGrpc.AsI64RoundTrip` | lightning-client/src/lnd_grpc.rs:57 | the signed amount read back as unsigned is the amount |
| `LndGrpc.AddInvoiceRequest` | lightning-client/src/lnd_grpc.rs:56-60 | memo is the description or "rust"; the amount's bits are preserved |
| `LndGrpc.AddInvoiceIgnoresLabel` | lightning-client/src/lnd_grpc.rs:53-60 | the label has no effect on the invoice added |
| `LndGrpc.CreateInvoice` | lightning-client/src/lnd_grpc.rs:53-68 | without the feature: "lnd-grpc feature not enabled"; otherwise the payment request, or the call's error passed on |
| `Cln.New` | lightning-client/src/cln.rs:11-16 | never fails; the stored URL is the input with every trailing `/` and nothing else removed |
| `Cln.NewIdempotent` | lightning-client/src/cln.rs:13 | constructing from a constructed client's URL gives the same client |
| `Cln.GetInfoRequest` | lightning-client/src/cln.rs:22-28 | a GET of `/v1/getinfo` under the base URL, with no macaroon |
| `Cln.GetInfo` | lightning-client/src/cln.rs:21-33 | alias from `alias`, default "CLN"; identity key from `id`, default "unknown"; a failed request passed on |
| `Cln.DefaultLabel` | lightning-client/src/cln.rs:43 | the label is "rust-" followed by the decimal digits of the Unix time, with a `-` before them for a negative time |
| `Cln.DefaultLabelInjective` | lightning-client/src/cln.rs:43 | invoices created in different seconds get different labels |
| `Cln.CreateInvoiceRequest` | lightning-client/src/cln.rs:43-52 | a POST of `/v1/invoice` whose body has exactly the keys `msatoshi`, `label` and `description`: the amount unchanged, the time-based label and the description or "rust" |
| `Cln.CreateInvoiceIgnoresLabel` | lightning-client/src/cln.rs:35-48 | the caller's label has no effect on the request |
| `Cln.CreateInvoice` | lightning-client/src/cln.rs:35-67 | without the feature: "CLN feature not enabled"; otherwise the answer's `bolt11` string, or "no bolt11" |
| `Config.RequiredString` | lightning-client/src/config.rs:10-12 | a required key: missing gives a missing-field error, a non-string gives a type error |
| `Config.DefaultedString` | lightning-client/src/config.rs:13-14 | a `#[serde(default)]` string: missing is "", present must be a string |
| `Config.DecodeNode` | lightning-client/src/config.rs:4-7 | `node` decodes exactly when it is a table whose `type` is a string, which it keeps |
| `Config.DecodeLndGrpc` | lightning-client/src/config.rs:10-15 | `host` and `macaroon_hex` required, `cert_hex` defaulted |
| `Config.DecodeLndRest` | lightning-client/src/config.rs:19-23 | `host`, `macaroon_hex` and `cert_path` all required |
| `Config.DecodeCln` | lightning-client/src/config.rs:26-28 | only `host`, required |
| `Config.Section` | lightning-client/src/config.rs:34-37 | an optional section is `None` when missing or null; otherwise it must decode |
| `Config.DecodeSettings` | lightning-client/src/config.rs:31-38 | decoding succeeds exactly when the root is a table, `node` decodes, and each of `lnd-grpc`, `lnd-rest` and `cln` is missing, null or decodes by its own rules; each section present is the decoded one |
| `Config.OtherKeysIgnored` | lightning-client/src/config.rs:31-38 | keys the settings do not read, such as `[api]`, have no effect on decoding |
| `Config.SettingsRoundTrip` | lightning-client/src/config.rs:31-38 | every `Settings`, with any combination of sections, is read back from its configuration tree |
| `Config.CertDefaults` | lightning-client/src/config.rs:10-23 | `cert_hex` may be left out (it becomes ""); `cert_path` may not |
| `Factory.Connect` | lightning-client/src/factory.rs:11-45 | dispatch on `node.type`; each named error for a disabled feature or missing section; the selected constructor's result and error passed on unchanged; any other type is "Unsupported node type"; a success is the variant the type names |
| `Factory.SelectionIgnoresOtherSections` | lightning-client/src/factory.rs:11-45 | the result depends only on `node.type` and the selected section |
| `Factory.ConnectFromConfig` | lightning-client/src/factory.rs:5-47 | a failed load is passed on, a bad tree is a deserialization error, otherwise the dispatch decides |
| `Factory.ClnSelectedAmongAll` | lightning-client/src/factory.rs:38-43 | with all three sections present and type "cln", the CLN client is built from the CLN host |
| `Factory.GetInfoAgrees` | lightning-client/src/lib.rs:48-50 | the three adapters give the same `NodeInfo` for the same alias and identity key |
| `ApiServer.GetBool` | api-server/src/main.rs:110-113 | a stored flag reads as absent, as a boolean, or as a decoding error |
| `ApiServer.SessionGateway.Login` | api-server/src/main.rs:80-97 | 500 and no store change when the hash does not parse; a verified password sets `logged_in` in this session only and answers 200 "success"; otherwise 401 "invalid password" and no change |
| `ApiServer.SessionGateway.Logout` | api-server/src/main.rs:99-103 | the session is purged, so it is no longer authenticated; always 200 "logged out" |
| `ApiServer.SessionGateway.RequireAuth` | api-server/src/main.rs:108-114 | passes exactly when `logged_in` is stored as `true`; otherwise 401 "login required" |
| `ApiServer.SessionGateway.GetInfo` | api-server/src/main.rs:119-130 | without a logged-in session: 401 and no backend call; otherwise one `get_info` call, then 200 with the node info or 500 with the error |
| `ApiServer.SessionGateway.CreateInvoice` | api-server/src/main.rs:132-148 | like `GetInfo`; the amount and description are passed on unchanged with no label; 200 `{"bolt11": ...}` |
| `ApiServer.LogoutEndsAccess` | api-server/src/main.rs:99-130 | logged in, the info route reaches the backend; after logout the same session gets 401 and the backend is not called again |
| `ApiServer.AsU16` | api-server/src/main.rs:48 | a port decodes from an integer from 0 to 65535 only |
| `ApiServer.DecodeApiConfig` | api-server/src/main.rs:42-56 | `password_hash` required; `host` defaults to 127.0.0.1 and `port` to 8080 |
| `ApiServer.ApiConfigOf` | api-server/src/main.rs:160-167 | a missing or undecodable `[api]` gives an empty hash on 127.0.0.1:8080 |
| `ApiServer.ApiConfigDefaults` | api-server/src/main.rs:160-167 | a section with only the hash gets the default address; a section without the hash is dropped whole, its host and port with it |
| `ApiServer.ChoosePort` | api-server/src/main.rs:175-178 | `PORT` overrides the configured port exactly when it parses as a `u16` |
| `ApiServer.PortOverride` | api-server/src/main.rs:175-178 | any port in decimal overrides; a leading space or 65536 falls back to the configured port |
| `ApiServer.ParseIpv4` | api-server/src/main.rs:179 | an accepted string is exactly the dotted-decimal text of the address it gives: four octets of at most 255, no leading zeros, the whole string consumed; with `Ipv4RoundTrip`, every such text is accepted |
| `ApiServer.ParseIpAddr` | api-server/src/main.rs:179 | a dotted-quad IPv4 address is taken first; a string without `:` parses exactly when it is a dotted-quad IPv4 address, so no host name is accepted; a failure is "invalid IP address syntax" |
| `ApiServer.Ipv4RoundTrip` | api-server/src/main.rs:179 | every IPv4 address in dotted decimal parses back to itself |
| `ApiServer.ListenAddressAsWritten` | api-server/src/main.rs:179 | an address exactly when the host parses as an IP literal, that address with the chosen port; otherwise "invalid IP address syntax" |
| `ApiServer.LocalhostRefused` | api-server/src/main.rs:179-183 | "localhost" counts as local for the cookie, yet is refused as the listening host |
| `ApiServer.ListenAddress` | api-server/src/main.rs:179-183 | corrected: "localhost" is the IPv4 loopback; every other host as written |
| `ApiServer.CookieSecure` | api-server/src/main.rs:182-183 | the default host gets an insecure cookie |
| `ApiServer.LocalHostsBindLoopback` | api-server/src/main.rs:179-183 | every host that gets an insecure cookie is the loopback address the server listens on |
| `ApiServer.KeyFrom` | api-server/src/main.rs:68 | `Key::from` panics exactly below 64 bytes; with 64 or more it loads a key from the first 64 |
| `ApiServer.LoadSessionKeyAsWritten` | api-server/src/main.rs:61-75 | an existing file must be 32 bytes and then panics; a missing one gets the generated key written; a read or write failure is passed on; no file is ever loaded |
| `ApiServer.WrittenKeyRefused` | api-server/src/main.rs:61-75 | the key a first start writes is refused by every later start |
| `ApiServer.LoadSessionKey` | api-server/src/main.rs:61-75 | corrected: never panics; a 64-byte file is the key; a missing file gets the generated key written; a read or write failure is passed on |
| `ApiServer.KeyPersists` | api-server/src/main.rs:61-75 | corrected, the generated key is the key every later start loads |
| `ApiServer.Startup` | api-server/src/main.rs:154-183 | corrected start-up (with `ListenAddress` and `LoadSessionKey`): each step's failure stops it with that step's error, in source order; it starts exactly when every step succeeds, with the decoded `[api]`, the connected driver, the chosen port bound at the host's address, the loaded or generated 64-byte key, and a secure cookie exactly for non-local hosts |
| `ApiServer.StartupAsWritten` | api-server/src/main.rs:154-183 | start-up as written: the same order, with the IP-literal host rule and the 32-byte key rule; a 32-byte key file panics; it serves only with a freshly generated key |
| `ApiServer.RestartNeverRuns` | api-server/src/main.rs:61-75 | as written, a start that finds a key file never serves |
| `ApiServer.LocalhostNeverRuns` | api-server/src/main.rs:179-183 | as written, a server configured with "localhost" never serves |
| `ApiServer.CorrectedStartupExtends` | api-server/src/main.rs:154-183 | whenever start-up as written serves, the corrected start-up serves the same server |

## Left out

- Network I/O is not modelled. This covers reqwest, the gRPC channel, TLS client building with `danger_accept_invalid_certs`, and PEM reading and parsing. Their outcomes are inputs (`TlsSetup`, `ChannelSetup`, each answer's `Result`).
- The `Grpc-Metadata-macaroon` header name and HTTP status codes from the nodes are not modelled. A request records its macaroon.
- Argon2 hash parsing and password verification are the gateway's function-valued constants `hashParses` and `passwordVerifies`.
- Key generation randomness, file reads and writes, the clock behind the CLN label, and the `PORT` variable are all parameters.
- Renewing the session id, cookie attributes (name, `HttpOnly`, `SameSite`) and session expiry are not modelled. Renewal keeps the session's state, which is all the routes read.
- actix's JSON extractors are not modelled: a malformed login or invoice body gets 400 before the handler runs. The routes take decoded values.
- The text of errors is not modelled. A 500 body carries the `Error` value, not its `Display` rendering.
- Logging lines are not modelled, including the "API is open" warning.
- `Arc<Mutex<…>>` and the server set-up are not modelled. The routes are sequential calls on one gateway.
- `Config.DecodeSettings` ignores the configuration library's key case folding and its conversion of numbers and booleans to strings.
- `Config.DecodeSettings` fixes the order faults are reported in: `node`, `lnd-grpc`, `lnd-rest`, `cln`, and field declaration order. The real deserializer reports in the file's map order.
- The serde sequence form of structs is not modelled.
- `Hex.Decode` works on characters. The `hex` crate works on UTF-8 bytes, so on non-ASCII input the kind of error, the character and the position may differ: for "é" the model reports an odd length where the crate reports an invalid character at 0, and for "éa" the reverse. Acceptance is the same.
- `Client.WrappingMul`: its contract states the product only when it fits in 64 bits. The wrapped value above that is computed but not described.
- `LndRest.DecodeInvoice`: an overflowing product panics in a debug build. The model follows a release build and states the amount exactly only below 2^64.
- `ApiServer.ParseIpAddr`: IPv6 literals are checked only for their alphabet and at least one `:`. Some malformed IPv6 strings that the standard library refuses are accepted. IPv4 follows the standard parser exactly.
- `list_invoices` takes `usize`. It is modelled as a 64-bit unsigned limit.
- The `LightningClient` trait is not modelled as a Dafny trait. It is the `Operation` datatype plus one function per adapter and operation.
- The CLN adapter lacks four of the six operations in this source, so the model does not give it those operations either.
- `ApiServer.SessionGateway.Logout`: the gateway's map stands for the cookie each client presents. Logout only tells the client to drop its cookie, so a copy of the cookie kept from before logout still authenticates; the model, like `LogoutEndsAccess`, assumes the client drops it.
- `LndRest.Requests`: lists the two balance requests together. That the channel request is sent only after the wallet answer arrived is captured only by `LndRest.GetBalance`, which ignores the channel answer when the wallet answer failed.
- tools/set-password/src/main.rs is not part of this model.

## Findings

| source | as written | input that shows it | evidently intended | confidence | as-written member | corrected member |
|---|---|---|---|---|---|---|
| api-server/src/main.rs:65-68 | An existing `session_key.bin` must hold 32 bytes and is then given to `Key::from`, which needs at least 64. A first start writes `Key::master()`, which is 64 bytes. | Start once so the 64-byte file is written, then start again: "session_key.bin must be 32 bytes" (`WrittenKeyRefused`). A 32-byte file panics instead. | The generated key is reloaded on every later start, with a length check of 64 (`KeyPersists`). | high, not executed | `ApiServer.LoadSessionKeyAsWritten` | `ApiServer.LoadSessionKey` |
| api-server/src/main.rs:179-183 | `host == "localhost"` is treated as local for the cookie, but `host.parse::<IpAddr>()?` runs first and refuses host names. | `api.host = "localhost"` makes start-up fail with "invalid IP address syntax" (`LocalhostRefused`). | "localhost" binds the loopback address, as the cookie rule assumes (`LocalHostsBindLoopback`). | high, not executed | `ApiServer.ListenAddressAsWritten` | `ApiServer.ListenAddress` |
| lightning-client/src/lnd_rest.rs:196-198 | Any string under `payment_error` fails the payment, including the empty string. | An answer with `"payment_error": ""`, a hash and an amount gives `Err("Payment failed: ")` (`EmptyPaymentErrorIsSuccess`). | Only a non-empty `payment_error` is a failure. | medium, not executed | `LndRest.PayInvoiceAsWritten` | `LndRest.PayInvoice` |

=== FILE: api_server.dfy ===
/** The HTTP API in front of the driver: the session gateway (login, logout
    and the check every protected route makes before it calls the backend)
    and the rules the server starts up by. Password hashing, the HTTP
    framework and the clock are outside the model: hash parsing and password
    verification are given as functions, and each backend answer is an input
    of the route that asks for it. */
module ApiServer {
  import opened Wrappers
  import opened Json
  import opened Text
  import opened Client
  import Hex
  import Factory

  const DEFAULT_HOST: string := "127.0.0.1"
  const DEFAULT_PORT: u16 := 8080

  /** The `[api]` section. */
  datatype ApiConfig = ApiConfig(passwordHash: string, host: string, port: u16)

  /** A response body: none, a JSON document, or the text of an error. */
  datatype Body = Empty | JsonBody(json: Value) | ErrorText(error: Error)

  datatype Response = Response(status: nat, body: Body)

  /** A one-member JSON object such as `{"status": "success"}`. */
  function Note(key: string, text: string): Value {
    Object(map[key := String(text)])
  }

  /** The answer every protected route gives without a logged-in session. */
  const LOGIN_REQUIRED: Response := Response(401, JsonBody(Note("error", "login required")))

  /** `NodeInfo` as the route serializes it. */
  function NodeInfoJson(info: NodeInfo): Value {
    Object(map["alias" := String(info.alias), "identity_pubkey" := String(info.identityPubkey)])
  }

  type SessionId = nat

  /** The values a session holds, by key. */
  type SessionState = map<string, Value>

  /** `session.get::<bool>(key)`: nothing stored, a boolean, or a value that
      does not decode as one. */
  function GetBool(state: SessionState, key: string): (r: Result<Option<bool>, DeError>)
    ensures r == Ok(None) <==> key !in state
    ensures r.Ok? && r.value.Some? <==> key in state && state[key].Bool?
    ensures r.Ok? && r.value.Some? ==> r.value.value == state[key].b
  {
    if key !in state then Ok(None)
    else if state[key].Bool? then Ok(Some(state[key].b))
    else Err(InvalidType(key))
  }

  /** `require_auth`'s test: the session decodes `logged_in` as `true`. */
  predicate LoggedIn(state: SessionState) {
    GetBool(state, "logged_in") == Ok(Some(true))
  }

  /** The session state each client presents, by session, and the log of the
      backend operations the routes issued. Sessions live in private (encrypted) cookies,
      so the map stands for the cookie each client holds: logging out tells
      the client to drop its cookie. */
  class SessionGateway {
    const config: ApiConfig
    /** Whether the stored hash parses as a PHC string. */
    const hashParses: string -> bool
    /** Whether a password matches a parsed hash under Argon2. */
    const passwordVerifies: (string, string) -> bool
    var sessions: map<SessionId, SessionState>
    var calls: seq<Operation>

    constructor (config: ApiConfig, hashParses: string -> bool, passwordVerifies: (string, string) -> bool)
      ensures this.config == config && this.hashParses == hashParses && this.passwordVerifies == passwordVerifies
      ensures sessions == map[] && calls == []
    {
      this.config := config;
      this.hashParses := hashParses;
      this.passwordVerifies := passwordVerifies;
      sessions := map[];
      calls := [];
    }

    /** The state of session `sid`; a session never written to is empty. */
    function Session(sid: SessionId): SessionState
      reads this
    {
      if sid in sessions then sessions[sid] else map[]
    }

    predicate Authenticated(sid: SessionId)
      reads this
    {
      LoggedIn(Session(sid))
    }

    /** `POST /login`: 500 and no password check when the stored hash does
        not parse; 200 and `logged_in` set when the password verifies; 401
        otherwise. Only a successful login writes to the store, and only to
        this session. */
    method Login(sid: SessionId, password: string) returns (resp: Response)
      modifies this`sessions
      ensures !hashParses(config.passwordHash) ==> resp == Response(500, Empty) && sessions == old(sessions)
      ensures hashParses(config.passwordHash) && passwordVerifies(password, config.passwordHash) ==>
                && resp == Response(200, JsonBody(Note("status", "success")))
                && sessions == old(sessions)[sid := old(Session(sid))["logged_in" := Bool(true)]]
                && Authenticated(sid)
      ensures hashParses(config.passwordHash) && !passwordVerifies(password, config.passwordHash) ==>
                resp == Response(401, JsonBody(Note("error", "invalid password"))) && sessions == old(sessions)
    {
      if !hashParses(config.passwordHash) {
        return Response(500, Empty);
      }
      if passwordVerifies(password, config.passwordHash) {
        sessions := sessions[sid := Session(sid)["logged_in" := Bool(true)]];
        resp := Response(200, JsonBody(Note("status", "success")));
      } else {
        resp := Response(401, JsonBody(Note("error", "invalid password")));
      }
    }

    /** `DELETE /logout`: the session is purged, always with 200. */
    method Logout(sid: SessionId) returns (resp: Response)
      modifies this`sessions
      ensures sessions == old(sessions) - {sid}
      ensures !Authenticated(sid)
      ensures resp == Response(200, JsonBody(Note("status", "logged out")))
    {
      sessions := sessions - {sid};
      resp := Response(200, JsonBody(Note("status", "logged out")));
    }

    /** `require_auth`: passes exactly when `logged_in` is stored as `true`;
        a missing, false or undecodable flag gives 401. Renewing the session
        id keeps its state, so nothing in the store changes. */
    method RequireAuth(sid: SessionId) returns (r: Result<(), Response>)
      ensures r.Ok? <==> sid in sessions && "logged_in" in sessions[sid] && sessions[sid]["logged_in"] == Bool(true)
      ensures r.Err? ==> r.error == LOGIN_REQUIRED
    {
      match GetBool(Session(sid), "logged_in")
      case Ok(Some(true)) => r := Ok(());
      case _ => r := Err(LOGIN_REQUIRED);
    }

    /** `GET /api/info`: without a logged-in session the backend is not
        called; otherwise it is asked once and its answer, or its error, is
        returned. */
    method GetInfo(sid: SessionId, reply: Result<NodeInfo, Error>) returns (resp: Response)
      modifies this`calls
      ensures !Authenticated(sid) ==> resp == LOGIN_REQUIRED && calls == old(calls)
      ensures Authenticated(sid) ==> calls == old(calls) + [Operation.GetInfo]
      ensures Authenticated(sid) && reply.Ok? ==> resp == Response(200, JsonBody(NodeInfoJson(reply.value)))
      ensures Authenticated(sid) && reply.Err? ==> resp == Response(500, ErrorText(reply.error))
    {
      var auth := RequireAuth(sid);
      if auth.Err? {
        return LOGIN_REQUIRED;
      }
      calls := calls + [Operation.GetInfo];
      match reply
      case Ok(info) => resp := Response(200, JsonBody(NodeInfoJson(info)));
      case Err(e) => resp := Response(500, ErrorText(e));
    }

    /** `POST /api/invoice`: like `GetInfo`; the amount and description are
        passed on unchanged and no label is ever given. */
    method CreateInvoice(sid: SessionId, msat: u64, desc: Option<string>, reply: Result<string, Error>) returns (resp: Response)
      modifies this`calls
      ensures !Authenticated(sid) ==> resp == LOGIN_REQUIRED && calls == old(calls)
      ensures Authenticated(sid) ==> calls == old(calls) + [Operation.CreateInvoice(msat, None, desc)]
      ensures Authenticated(sid) && reply.Ok? ==> resp == Response(200, JsonBody(Note("bolt11", reply.value)))
      ensures Authenticated(sid) && reply.Err? ==> resp == Response(500, ErrorText(reply.error))
    {
      var auth := RequireAuth(sid);
      if auth.Err? {
        return LOGIN_REQUIRED;
      }
      calls := calls + [Operation.CreateInvoice(msat, None, desc)];
      match reply
      case Ok(bolt11) => resp := Response(200, JsonBody(Note("bolt11", bolt11)));
      case Err(e) => resp := Response(500, ErrorText(e));
    }
  }

  /** A session that logs in reaches the backend; after logout the same
      session is turned away before the backend is called. */
  method LogoutEndsAccess(gw: SessionGateway, sid: SessionId, password: string, reply: Result<NodeInfo, Error>)
    returns (before: Response, after: Response)
    requires gw.hashParses(gw.config.passwordHash) && gw.passwordVerifies(password, gw.config.passwordHash)
    modifies gw
    ensures before.status == (if reply.Ok? then 200 else 500)
    ensures after == LOGIN_REQUIRED
    ensures gw.calls == old(gw.calls) + [Operation.GetInfo]
    ensures sid !in gw.sessions
  {
    var loggedIn := gw.Login(sid, password);
    before := gw.GetInfo(sid, reply);
    var loggedOut := gw.Logout(sid);
    after := gw.GetInfo(sid, reply);
  }

  // ---------------------------------------------------------------------
  // Start-up rules

  /** `u16` deserialized from JSON: an integer from 0 to 65535. */
  function AsU16(v: Value): (r: Option<u16>)
    ensures r.Some? <==> v.Number? && 0 <= v.n < 0x1_0000
    ensures r.Some? ==> r.value == v.n
  {
    if v.Number? && 0 <= v.n < 0x1_0000 then Some(v.n as u16) else None
  }

  /** `ApiConfig` deserialized from the `[api]` value: `password_hash` is
      required, `host` and `port` default to 127.0.0.1 and 8080. */
  function DecodeApiConfig(v: Value): (r: Result<ApiConfig, DeError>)
    ensures r.Ok? <==> && v.Object? && "password_hash" in v.fields && v.fields["password_hash"].String?
                       && ("host" in v.fields ==> v.fields["host"].String?)
                       && ("port" in v.fields ==> AsU16(v.fields["port"]).Some?)
    ensures r.Ok? ==> && r.value.passwordHash == v.fields["password_hash"].s
                      && r.value.host == (if "host" in v.fields then v.fields["host"].s else DEFAULT_HOST)
                      && r.value.port == (if "port" in v.fields then v.fields["port"].n else DEFAULT_PORT)
  {
    if !v.Object? then Err(InvalidType(""))
    else if "password_hash" !in v.fields then Err(MissingField("password_hash"))
    else if !v.fields["password_hash"].String? then Err(InvalidType("password_hash"))
    else if "host" in v.fields && !v.fields["host"].String? then Err(InvalidType("host"))
    else if "port" in v.fields && AsU16(v.fields["port"]).None? then Err(InvalidType("port"))
    else
      var host := if "host" in v.fields then v.fields["host"].s else DEFAULT_HOST;
      var port := if "port" in v.fields then AsU16(v.fields["port"]).value else DEFAULT_PORT;
      Ok(ApiConfig(v.fields["password_hash"].s, host, port))
  }

  /** The configuration the server runs with: the `[api]` section when it
      decodes, otherwise an empty hash on 127.0.0.1:8080. */
  function ApiConfigOf(settings: Value): (c: ApiConfig)
    ensures (Member(settings, "api").None? || DecodeApiConfig(Member(settings, "api").value).Err?) ==>
              c == ApiConfig("", DEFAULT_HOST, DEFAULT_PORT)
    ensures Member(settings, "api").Some? && DecodeApiConfig(Member(settings, "api").value).Ok? ==>
              c == DecodeApiConfig(Member(settings, "api").value).value
  {
    match Member(settings, "api")
    case None => ApiConfig("", DEFAULT_HOST, DEFAULT_PORT)
    case Some(v) =>
      match DecodeApiConfig(v)
      case Ok(c) => c
      case Err(_) => ApiConfig("", DEFAULT_HOST, DEFAULT_PORT)
  }

  /** A section with only the hash gets the default host and port; a section
      without the hash is dropped whole, its host and port with it. */
  lemma ApiConfigDefaults(hash: string, host: string, port: u16)
    ensures ApiConfigOf(Object(map["api" := Object(map["password_hash" := String(hash)])]))
              == ApiConfig(hash, "127.0.0.1", 8080)
    ensures ApiConfigOf(Object(map["api" := Object(map["host" := String(host), "port" := Number(port)])]))
              == ApiConfig("", "127.0.0.1", 8080)
  {
  }

  /** The port listened on: `PORT` when it parses as a `u16`, the configured
      port otherwise. */
  function ChoosePort(portVar: Option<string>, configured: u16): (p: u16)
    ensures portVar.Some? && ParseU16(portVar.value).Some? ==> p == ParseU16(portVar.value).value
    ensures portVar.None? || ParseU16(portVar.value).None? ==> p == configured
  {
    match portVar
    case Some(s) => ParseU16(s).GetOr(configured)
    case None => configured
  }

  /** Any port written in decimal overrides the configured one; the same
      digits with a leading space, or a number past 65535, do not. */
  lemma PortOverride(p: u16, configured: u16)
    ensures ChoosePort(Some(NatToDecimal(p)), configured) == p
    ensures ChoosePort(Some(" " + NatToDecimal(p)), configured) == configured
    ensures ChoosePort(Some("65536"), configured) == configured
  {
    assert ChoosePort(Some(NatToDecimal(p)), configured) == p by {
      ParseU16Decimal(p);
    }
    assert ChoosePort(Some(" " + NatToDecimal(p)), configured) == configured by {
      var t := " " + NatToDecimal(p);
      assert t[0] == ' ';
    }
    assert ChoosePort(Some("65536"), configured) == configured by {
      FirstPastU16();
    }
  }

  /** The digits "65536" denote the first value past `u16`. */
  lemma FirstPastU16()
    ensures AllDigits("65536") && DigitsValue("65536") == 65536
  {
    var s1, s2, s3, s4, s5 := "6", "65", "655", "6553", "65536";
    assert s1[..0] == [] && s2[..1] == s1 && s3[..2] == s2 && s4[..3] == s3 && s5[..4] == s4;
    assert DigitsValue(s1) == 6;
    assert DigitsValue(s2) == 65;
    assert DigitsValue(s3) == 655;
    assert DigitsValue(s4) == 6553;
  }

  /** `cookie_secure`: off for the hosts the server treats as local, which
      include the default host. */
  predicate CookieSecure(host: string)
    ensures host == DEFAULT_HOST ==> !CookieSecure(host)
  {
    !(host == "127.0.0.1" || host == "localhost")
  }

  /** An address the server can listen on. */
  datatype IpAddr = V4(a: Hex.byte, b: Hex.byte, c: Hex.byte, d: Hex.byte) | V6(text: string)

  datatype SocketAddr = SocketAddr(ip: IpAddr, port: u16)

  /** The number of ASCII digits `s` starts with. */
  function DigitPrefix(s: string): (n: nat)
    ensures n <= |s| && AllDigits(s[..n])
    ensures n == |s| || !IsAsciiDigit(s[n])
  {
    if s != [] && IsAsciiDigit(s[0]) then
      var n := 1 + DigitPrefix(s[1..]);
      assert s[..n] == [s[0]] + s[1..][..n - 1];
      n
    else 0
  }

  /** One IPv4 octet at the start of `s`: all the digits there, one to three
      of them, no leading zero, at most 255; with what follows it. */
  function ReadOctet(s: string): (r: Option<(Hex.byte, string)>)
    ensures r.Some? ==> var n := |s| - |r.value.1|;
              0 < n <= |s| && r.value.1 == s[n..] && AllDigits(s[..n])
    ensures r.Some? ==> r.value.1 == [] || !IsAsciiDigit(r.value.1[0])
    ensures r.Some? ==> s == NatToDecimal(r.value.0) + r.value.1
  {
    var n := DigitPrefix(s);
    var run := s[..n];
    if 1 <= |run| <= 3 && (|run| == 1 || run[0] != '0') && DigitsValue(run) < 256
    then
      CanonicalDigits(run);
      assert s == run + s[n..];
      Some((DigitsValue(run), s[n..]))
    else None
  }

  /** Octets written in decimal, separated by dots. */
  function OctetsText(o: seq<Hex.byte>): string
    requires |o| >= 1
    decreases |o|
  {
    if |o| == 1 then NatToDecimal(o[0]) else NatToDecimal(o[0]) + ("." + OctetsText(o[1..]))
  }

  /** `n` octets separated by dots, making up all of `s`. */
  function OctetsFrom(s: string, n: nat): (r: Option<seq<Hex.byte>>)
    requires n >= 1
    ensures r.Some? ==> |r.value| == n
    ensures r.Some? ==> forall k :: 0 <= k < |s| ==> IsAsciiDigit(s[k]) || s[k] == '.'
    ensures r.Some? ==> s == OctetsText(r.value)
    decreases n
  {
    match ReadOctet(s)
    case None => None
    case Some((octet, rest)) =>
      if n == 1 then (if rest == [] then assert s == NatToDecimal(octet) + rest; Some([octet]) else None)
      else if rest != [] && rest[0] == '.' then
        match OctetsFrom(rest[1..], n - 1)
        case Some(more) =>
          var m := |s| - |rest|;
          assert rest == s[m..];
          forall k | 0 <= k < |s|
            ensures IsAsciiDigit(s[k]) || s[k] == '.'
          {
            if k < m {
              assert s[k] == s[..m][k];
            } else if k > m {
              assert s[k] == rest[1..][k - m - 1];
            }
          }
          assert rest == "." + rest[1..];
          assert ([octet] + more)[1..] == more;
          Some([octet] + more)
        case None => None
      else None
  }

  /** Dotted-quad IPv4 as Rust's `Ipv4Addr` parser reads it. */
  function ParseIpv4(s: string): (r: Option<IpAddr>)
    ensures r.Some? ==> r.value.V4? && forall k :: 0 <= k < |s| ==> IsAsciiDigit(s[k]) || s[k] == '.'
    ensures r.Some? ==> s == Ipv4Text(r.value.a, r.value.b, r.value.c, r.value.d)
  {
    match OctetsFrom(s, 4)
    case Some(o) =>
      Ipv4TextOctets(o);
      Some(V4(o[0], o[1], o[2], o[3]))
    case None => None
  }

  /** Four octets written with dots are their dotted-decimal text. */
  lemma Ipv4TextOctets(o: seq<Hex.byte>)
    requires |o| == 4
    ensures OctetsText(o) == Ipv4Text(o[0], o[1], o[2], o[3])
  {
    assert o[1..][1..][1..] == [o[3]];
    assert OctetsText(o[1..][1..]) == NatToDecimal(o[2]) + ("." + NatToDecimal(o[3]));
  }

  /** The characters an IPv6 literal is written with, and at least one `:`. */
  predicate Ipv6Shaped(s: string) {
    (exists k :: 0 <= k < |s| && s[k] == ':')
    && forall k :: 0 <= k < |s| ==> Hex.IsHexDigit(s[k]) || s[k] == ':' || s[k] == '.'
  }

  /** `host.parse::<IpAddr>()`: IPv4 first, then IPv6. Only literal
      addresses are accepted, never a host name. */
  function ParseIpAddr(s: string): (r: Result<IpAddr, Error>)
    ensures r.Ok? ==> forall k :: 0 <= k < |s| ==> Hex.IsHexDigit(s[k]) || s[k] == '.' || s[k] == ':'
    ensures r.Err? ==> r.error == Message("invalid IP address syntax")
    ensures ParseIpv4(s).Some? ==> r == Ok(ParseIpv4(s).value)
    ensures (forall k :: 0 <= k < |s| ==> s[k] != ':') ==> (r.Ok? <==> ParseIpv4(s).Some?)
  {
    match ParseIpv4(s)
    case Some(ip) => Ok(ip)
    case None => if Ipv6Shaped(s) then Ok(V6(s)) else Err(Message("invalid IP address syntax"))
  }

  /** The decimal form `a.b.c.d` of an IPv4 address. */
  function Ipv4Text(a: Hex.byte, b: Hex.byte, c: Hex.byte, d: Hex.byte): string {
    NatToDecimal(a) + ("." + (NatToDecimal(b) + ("." + (NatToDecimal(c) + ("." + NatToDecimal(d))))))
  }

  /** A byte has at most three decimal digits. */
  lemma {:induction false} ByteDigits(x: Hex.byte)
    ensures |NatToDecimal(x)| <= 3
  {
    if x >= 10 {
      assert |NatToDecimal(x / 10)| <= 2 by {
        if x / 10 >= 10 {
          assert |NatToDecimal(x / 100)| == 1;
        }
      }
    }
  }

  /** The octet written before `rest` is read back, and reading stops at the
      end of its digits. */
  lemma ReadOctetOf(x: Hex.byte, rest: string)
    requires rest == [] || rest[0] == '.'
    ensures ReadOctet(NatToDecimal(x) + rest) == Some((x, rest))
  {
    var t := NatToDecimal(x);
    var s := t + rest;
    var n := DigitPrefix(s);
    assert forall k :: 0 <= k < |t| ==> s[k] == t[k];
    assert forall k :: 0 <= k < n ==> s[k] == s[..n][k];
    assert rest != [] ==> s[|t|] == rest[0];
    assert n == |t|;
    assert s[..n] == t && s[n..] == rest;
    ByteDigits(x);
    DecimalRoundTrip(x);
  }

  /** An octet, a dot and `n - 1` more octets make `n` octets. */
  lemma OctetThenDot(x: Hex.byte, rest: string, n: nat, more: seq<Hex.byte>)
    requires n >= 2 && OctetsFrom(rest, n - 1) == Some(more)
    ensures OctetsFrom(NatToDecimal(x) + ("." + rest), n) == Some([x] + more)
  {
    ReadOctetOf(x, "." + rest);
    assert ("." + rest)[1..] == rest;
  }

  /** Every IPv4 address written in dotted decimal parses back to itself. */
  lemma Ipv4RoundTrip(a: Hex.byte, b: Hex.byte, c: Hex.byte, d: Hex.byte)
    ensures ParseIpAddr(Ipv4Text(a, b, c, d)) == Ok(V4(a, b, c, d))
  {
    var td := NatToDecimal(d);
    var tc := NatToDecimal(c) + ("." + td);
    var tb := NatToDecimal(b) + ("." + tc);
    assert OctetsFrom(td, 1) == Some([d]) by {
      ReadOctetOf(d, []);
      assert td + [] == td;
    }
    assert OctetsFrom(tc, 2) == Some([c] + [d]) by {
      OctetThenDot(c, td, 2, [d]);
    }
    assert OctetsFrom(tb, 3) == Some([b] + ([c] + [d])) by {
      OctetThenDot(b, tc, 3, [c] + [d]);
    }
    assert OctetsFrom(Ipv4Text(a, b, c, d), 4) == Some([a] + ([b] + ([c] + [d]))) by {
      OctetThenDot(a, tb, 4, [b] + ([c] + [d]));
    }
    assert ParseIpv4(Ipv4Text(a, b, c, d)) == Some(V4(a, b, c, d));
  }

  /** The address the server binds, as written: the host must be an IP
      literal. */
  function ListenAddressAsWritten(host: string, port: u16): (r: Result<SocketAddr, Error>)
    ensures r.Ok? <==> ParseIpAddr(host).Ok?
    ensures r.Ok? ==> r.value.port == port && ParseIpAddr(host) == Ok(r.value.ip)
    ensures r.Err? ==> r == Err(Message("invalid IP address syntax"))
  {
    var ip :- ParseIpAddr(host);
    Ok(SocketAddr(ip, port))
  }

  /** As written, "localhost" is treated as local for the cookie but refused
      as the listening host, so a server configured with it never starts. */
  lemma LocalhostRefused(port: u16)
    ensures !CookieSecure("localhost")
    ensures ListenAddressAsWritten("localhost", port).Err?
  {
    var s := "localhost";
    assert !Hex.IsHexDigit(s[0]);
  }

  /** The address the server binds, corrected: "localhost" is the IPv4
      loopback. */
  function ListenAddress(host: string, port: u16): (r: Result<SocketAddr, Error>)
    ensures host != "localhost" ==> r == ListenAddressAsWritten(host, port)
    ensures host == "localhost" ==> r == Ok(SocketAddr(V4(127, 0, 0, 1), port))
  {
    if host == "localhost" then Ok(SocketAddr(V4(127, 0, 0, 1), port)) else ListenAddressAsWritten(host, port)
  }

  /** 127.0.0.1 is the dotted-decimal text of the loopback address. */
  lemma LoopbackText()
    ensures Ipv4Text(127, 0, 0, 1) == "127.0.0.1"
  {
    assert NatToDecimal(0) == "0" && NatToDecimal(1) == "1";
    assert NatToDecimal(12) == "12";
    assert NatToDecimal(127) == "127";
  }

  /** Every host the server treats as local (insecure cookie) is the IPv4
      loopback it listens on. */
  lemma LocalHostsBindLoopback(host: string, port: u16)
    requires !CookieSecure(host)
    ensures ListenAddress(host, port) == Ok(SocketAddr(V4(127, 0, 0, 1), port))
  {
    if host == "127.0.0.1" {
      Ipv4RoundTrip(127, 0, 0, 1);
      LoopbackText();
    }
  }

  // ---------------------------------------------------------------------
  // Session key

  /** The length of a cookie signing-and-encryption master key. */
  const KEY_LEN: nat := 64

  /** A cookie master key, `KEY_LEN` bytes. */
  datatype Key = Key(master: seq<Hex.byte>)

  /** `session_key.bin` as found at start-up. */
  datatype KeyFile = Missing | Unreadable(reason: string) | Present(data: seq<Hex.byte>)

  /** How start-up obtains its key: read from the file, freshly generated
      (with the bytes written to the file), refused with an error, or a
      panic. */
  datatype KeyOutcome = Loaded(key: Key) | Generated(key: Key, written: seq<Hex.byte>) | Failed(error: Error) | Panicked

  /** `Key::from(data)`: panics below `KEY_LEN` bytes, uses the first
      `KEY_LEN` otherwise. */
  function KeyFrom(data: seq<Hex.byte>): (r: KeyOutcome)
    ensures |data| < KEY_LEN <==> r.Panicked?
    ensures |data| >= KEY_LEN ==> r.Loaded?
    ensures r.Loaded? ==> r.key.master == data[..KEY_LEN]
  {
    if |data| < KEY_LEN then Panicked else Loaded(Key(data[..KEY_LEN]))
  }

  /** `load_or_create_session_key` as written: an existing file must hold 32
      bytes; a missing one gets `generated` (the generated key's master bytes)
      written to it. */
  function LoadSessionKeyAsWritten(file: KeyFile, generated: seq<Hex.byte>, writeError: Option<string>): (r: KeyOutcome)
    requires |generated| == KEY_LEN
    ensures file.Present? && |file.data| != 32 ==> r == Failed(Message("session_key.bin must be 32 bytes"))
    ensures file.Present? && |file.data| == 32 ==> r.Panicked?
    ensures file.Missing? && writeError.None? ==> r == Generated(Key(generated), generated)
    ensures file.Unreadable? ==> r == Failed(Transport(file.reason))
    ensures file.Missing? && writeError.Some? ==> r == Failed(Transport(writeError.value))
    ensures !r.Loaded?
  {
    match file
    case Unreadable(e) => Failed(Transport(e))
    case Present(data) =>
      if |data| != 32 then Failed(Message("session_key.bin must be 32 bytes")) else KeyFrom(data)
    case Missing =>
      match writeError
      case Some(e) => Failed(Transport(e))
      case None => Generated(Key(generated), generated)
  }

  /** As written, the key a first start writes is refused by every later
      start, and no file contents at all are ever loaded. */
  lemma WrittenKeyRefused(generated: seq<Hex.byte>, later: seq<Hex.byte>, writeError: Option<string>)
    requires |generated| == KEY_LEN && |later| == KEY_LEN
    ensures var first := LoadSessionKeyAsWritten(Missing, generated, None);
      first.Generated? && LoadSessionKeyAsWritten(Present(first.written), later, writeError)
                            == Failed(Message("session_key.bin must be 32 bytes"))
  {
  }

  /** `load_or_create_session_key`, corrected: an existing file must hold
      exactly the `KEY_LEN` bytes a generated key writes. */
  function LoadSessionKey(file: KeyFile, generated: seq<Hex.byte>, writeError: Option<string>): (r: KeyOutcome)
    requires |generated| == KEY_LEN
    ensures !r.Panicked?
    ensures file.Present? && |file.data| == KEY_LEN ==> r == Loaded(Key(file.data))
    ensures file.Present? && |file.data| != KEY_LEN ==> r == Failed(Message("session_key.bin must be 64 bytes"))
    ensures file.Missing? && writeError.None? ==> r == Generated(Key(generated), generated)
    ensures file.Unreadable? ==> r == Failed(Transport(file.reason))
    ensures file.Missing? && writeError.Some? ==> r == Failed(Transport(writeError.value))
    ensures r.Loaded? || r.Generated? ==> |r.key.master| == KEY_LEN
  {
    match file
    case Unreadable(e) => Failed(Transport(e))
    case Present(data) =>
      if |data| != KEY_LEN then Failed(Message("session_key.bin must be 64 bytes"))
      else
        var key := KeyFrom(data);
        assert data[..KEY_LEN] == data;
        key
    case Missing =>
      match writeError
      case Some(e) => Failed(Transport(e))
      case None => Generated(Key(generated), generated)
  }

  /** Corrected, the key a first start generates is the key every later
      start loads, so sessions survive a restart. */
  lemma KeyPersists(generated: seq<Hex.byte>, later: seq<Hex.byte>, writeError: Option<string>)
    requires |generated| == KEY_LEN && |later| == KEY_LEN
    ensures var first := LoadSessionKey(Missing, generated, None);
      first.Generated? && LoadSessionKey(Present(first.written), later, writeError) == Loaded(first.key)
  {
  }

  // ---------------------------------------------------------------------
  // Start-up

  /** What the server runs with once started. */
  datatype Server = Server(driver: Factory.Driver, config: ApiConfig, addr: SocketAddr, key: Key, cookieSecure: bool)

  /** Start-up in order: the configuration tree, the backend, the port, the
      address, the session key and the cookie flag. The first failure stops
      it. This is start-up under the corrected address and key rules. */
  function Startup(loaded: Result<Value, Error>, env: Factory.Environment, portVar: Option<string>,
                   file: KeyFile, generated: seq<Hex.byte>, writeError: Option<string>): (r: Result<Server, Error>)
    requires |generated| == KEY_LEN
    ensures loaded.Err? ==> r == Err(loaded.error)
    ensures loaded.Ok? && Factory.ConnectFromConfig(loaded, env).Err? ==> r == Err(Factory.ConnectFromConfig(loaded, env).error)
    ensures loaded.Ok? && Factory.ConnectFromConfig(loaded, env).Ok? ==>
              var config := ApiConfigOf(loaded.value);
              var addr := ListenAddress(config.host, ChoosePort(portVar, config.port));
              var key := LoadSessionKey(file, generated, writeError);
              && (addr.Err? ==> r == Err(addr.error))
              && (addr.Ok? && key.Failed? ==> r == Err(key.error))
              && (addr.Ok? && !key.Failed? ==> r.Ok? && r.value.addr == addr.value && r.value.key == key.key)
    ensures r.Ok? ==> && loaded.Ok?
                      && r.value.config == ApiConfigOf(loaded.value)
                      && r.value.driver == Factory.ConnectFromConfig(loaded, env).value
                      && r.value.addr.port == ChoosePort(portVar, r.value.config.port)
                      && ListenAddress(r.value.config.host, r.value.addr.port) == Ok(r.value.addr)
                      && |r.value.key.master| == KEY_LEN
                      && (r.value.cookieSecure <==> CookieSecure(r.value.config.host))
  {
    var settings :- loaded;
    var config := ApiConfigOf(settings);
    var driver :- Factory.ConnectFromConfig(loaded, env);
    var port := ChoosePort(portVar, config.port);
    var addr :- ListenAddress(config.host, port);
    match LoadSessionKey(file, generated, writeError)
    case Failed(e) => Err(e)
    case Loaded(key) => Ok(Server(driver, config, addr, key, CookieSecure(config.host)))
    case Generated(key, _) => Ok(Server(driver, config, addr, key, CookieSecure(config.host)))
  }

  /** How `main` ends up: serving, returning an error, or panicking. */
  datatype Launch = Running(server: Server) | Exited(error: Error) | Aborted

  /** Start-up as written: the host must be an IP literal and an existing key
      file must hold 32 bytes, which `Key::from` then refuses with a panic. */
  function StartupAsWritten(loaded: Result<Value, Error>, env: Factory.Environment, portVar: Option<string>,
                            file: KeyFile, generated: seq<Hex.byte>, writeError: Option<string>): (r: Launch)
    requires |generated| == KEY_LEN
    ensures loaded.Err? ==> r == Exited(loaded.error)
    ensures loaded.Ok? && Factory.ConnectFromConfig(loaded, env).Err? ==> r == Exited(Factory.ConnectFromConfig(loaded, env).error)
    ensures loaded.Ok? && Factory.ConnectFromConfig(loaded, env).Ok? ==>
              var config := ApiConfigOf(loaded.value);
              var addr := ListenAddressAsWritten(config.host, ChoosePort(portVar, config.port));
              var key := LoadSessionKeyAsWritten(file, generated, writeError);
              && (addr.Err? ==> r == Exited(addr.error))
              && (addr.Ok? && key.Failed? ==> r == Exited(key.error))
              && (addr.Ok? && key.Panicked? ==> r == Aborted)
              && (addr.Ok? && key.Generated? ==> r.Running? && r.server.addr == addr.value && r.server.key == key.key)
    ensures r.Running? ==> && loaded.Ok?
                           && r.server.config == ApiConfigOf(loaded.value)
                           && ListenAddressAsWritten(r.server.config.host, ChoosePort(portVar, r.server.config.port)).Ok?
                           && LoadSessionKeyAsWritten(file, generated, writeError).Generated?
                           && r.server.driver == Factory.ConnectFromConfig(loaded, env).value
                           && (r.server.cookieSecure <==> CookieSecure(r.server.config.host))
  {
    if loaded.Err? then Exited(loaded.error)
    else
      var config := ApiConfigOf(loaded.value);
      match Factory.ConnectFromConfig(loaded, env)
      case Err(e) => Exited(e)
      case Ok(driver) =>
        match ListenAddressAsWritten(config.host, ChoosePort(portVar, config.port))
        case Err(e) => Exited(e)
        case Ok(addr) =>
          match LoadSessionKeyAsWritten(file, generated, writeError)
          case Failed(e) => Exited(e)
          case Panicked => Aborted
          case Generated(key, _) => Running(Server(driver, config, addr, key, CookieSecure(config.host)))
  }

  /** As written, a start that finds a key file never serves. */
  lemma RestartNeverRuns(loaded: Result<Value, Error>, env: Factory.Environment, portVar: Option<string>,
                         data: seq<Hex.byte>, generated: seq<Hex.byte>, writeError: Option<string>)
    requires |generated| == KEY_LEN
    ensures !StartupAsWritten(loaded, env, portVar, Present(data), generated, writeError).Running?
  {
    assert !LoadSessionKeyAsWritten(Present(data), generated, writeError).Generated?;
  }

  /** As written, a server configured with "localhost" never serves. */
  lemma LocalhostNeverRuns(loaded: Result<Value, Error>, env: Factory.Environment, portVar: Option<string>,
                           file: KeyFile, generated: seq<Hex.byte>, writeError: Option<string>)
    requires |generated| == KEY_LEN
    requires loaded.Ok? && ApiConfigOf(loaded.value).host == "localhost"
    ensures !StartupAsWritten(loaded, env, portVar, file, generated, writeError).Running?
  {
    LocalhostRefused(ChoosePort(portVar, ApiConfigOf(loaded.value).port));
  }

  /** Whenever the start-up as written serves, the corrected start-up serves
      the same server: the corrections only turn failures into starts. */
  lemma CorrectedStartupExtends(loaded: Result<Value, Error>, env: Factory.Environment, portVar: Option<string>,
                                file: KeyFile, generated: seq<Hex.byte>, writeError: Option<string>)
    requires |generated| == KEY_LEN
    ensures StartupAsWritten(loaded, env, portVar, file, generated, writeError).Running? ==>
              Startup(loaded, env, portVar, file, generated, writeError)
                == Ok(StartupAsWritten(loaded, env, portVar, file, generated, writeError).server)
  {
    if !StartupAsWritten(loaded, env, portVar, file, generated, writeError).Running? {
      return;
    }
    var server := StartupAsWritten(loaded, env, portVar, file, generated, writeError).server;
    var config := ApiConfigOf(loaded.value);
    var port := ChoosePort(portVar, config.port);
    if config.host == "localhost" {
      LocalhostRefused(port);
    }
    assert ListenAddress(config.host, port) == ListenAddressAsWritten(config.host, port);
    assert LoadSessionKey(file, generated, writeError) == LoadSessionKeyAsWritten(file, generated, writeError);
  }
}

=== FILE: client.dfy ===
/** The uniform client contract every backend adapter implements: the values
    it hands back, the errors it can fail with and its six operations. */
module Client {
  import opened Wrappers
  import opened Json
  import Hex

  /** The node's public name and identity key. */
  datatype NodeInfo = NodeInfo(alias: string, identityPubkey: string)

  /** On-chain funds in satoshi and channel funds in millisatoshi: two
      independent amounts in two different units. */
  datatype Balance = Balance(onchainSat: u64, channelMsat: u64)

  /** An invoice as listed: hash, amount in millisatoshi and a state word are
      always there; the encoded invoice and the description may be missing. */
  datatype Invoice = Invoice(hash: string, amountMsat: u64, state: string, bolt11: Option<string>, desc: Option<string>)

  /** What decoding a bolt11 string tells, every part optional. */
  datatype DecodedInvoice = DecodedInvoice(amountMsat: Option<u64>, desc: Option<string>, payee: Option<string>)

  /** The outcome of a payment: hash and amount always, the fee if reported. */
  datatype PaymentResult = PaymentResult(hash: string, amountMsat: u64, feeMsat: Option<u64>)

  /** Why a decoded value was refused: a required key is missing, or a key
      holds a value of the wrong type (the empty name stands for the whole
      value). */
  datatype DeError = MissingField(name: string) | InvalidType(name: string)

  /** The errors the core raises or passes on. */
  datatype Error =
    | Message(text: string)                    // an error raised with this text
    | HexDecode(hexError: Hex.HexError)       // a hex decoding failure passed on unchanged
    | Context(prefix: string, cause: Error)    // `prefix` followed by the text of `cause`
    | Transport(detail: string)                // an I/O failure: network, TLS, file system, body decoding
    | Deserialize(reason: DeError)             // a configuration value of the wrong shape

  /** The six operations of the contract; each one either fails with an
      `Error` or yields its own kind of value (`NodeInfo`, one bolt11 string,
      `Balance`, a sequence of `Invoice`, `DecodedInvoice`, `PaymentResult`). */
  datatype Operation =
    | GetInfo
    | CreateInvoice(msat: u64, invoiceLabel: Option<string>, desc: Option<string>)
    | GetBalance
    | ListInvoices(limit: Option<u64>)
    | DecodeInvoice(bolt11: string)
    | PayInvoice(bolt11: string)

  /** `a.wrapping_mul(b)` on `u64` (what `a * b` does in a release build). */
  function WrappingMul(a: u64, b: u64): (r: u64)
    ensures a * b < U64_BOUND ==> r == a * b
  {
    var product: nat := a * b;
    product % U64_BOUND
  }
}

=== FILE: cln.dfy ===
/** The Core Lightning REST adapter: construction, the requests of the two
    operations it implements and how their answers are read. */
module Cln {
  import opened Wrappers
  import opened Json
  import opened Text
  import opened Client

  /** A constructed adapter: the base URL without trailing `/`. */
  datatype ClnClient = ClnClient(url: string)

  /** `ClnClient::new`: never fails; every trailing `/` is cut off and
      nothing else. */
  function New(url: string): (c: ClnClient)
    ensures c.url <= url
    ensures c.url == [] || c.url[|c.url| - 1] != '/'
    ensures forall i :: |c.url| <= i < |url| ==> url[i] == '/'
  {
    ClnClient(TrimEndMatches(url, '/'))
  }

  /** Constructing from the URL of a constructed client gives that client. */
  lemma NewIdempotent(url: string)
    ensures New(New(url).url) == New(url)
  {
    TrimEndMatchesIdempotent(url, '/');
  }

  /** The request `get_info` sends: no macaroon, no body. */
  function GetInfoRequest(c: ClnClient): (req: Request)
    ensures req.verb == Get && req.macaroon.None? && req.body.None?
    ensures c.url <= req.url && req.url[|c.url|..] == "/v1/getinfo"
  {
    Request(Get, c.url + "/v1/getinfo", None, None)
  }

  /** `get_info`: alias from `alias` ("CLN" by default), identity key from
      `id` ("unknown" by default); a failed request is passed on. */
  function GetInfo(res: Result<Value, Error>): (r: Result<NodeInfo, Error>)
    ensures res.Err? ==> r == Err(res.error)
    ensures res.Ok? ==> r.Ok?
    ensures r.Ok? ==> r.value.alias == (if Index(res.value, "alias").String? then Index(res.value, "alias").s else "CLN")
    ensures r.Ok? ==> r.value.identityPubkey == (if Index(res.value, "id").String? then Index(res.value, "id").s else "unknown")
  {
    var v :- res;
    Ok(NodeInfo(AsStr(Index(v, "alias")).GetOr("CLN"), AsStr(Index(v, "id")).GetOr("unknown")))
  }

  /** The label CLN's invoice gets: "rust-" and the Unix time in seconds. */
  function DefaultLabel(now: int): (l: string)
    ensures "rust-" <= l && |l| > 5
    ensures now >= 0 ==> AllDigits(l[5..]) && DigitsValue(l[5..]) == now
    ensures now < 0 ==> l[5] == '-' && AllDigits(l[6..]) && DigitsValue(l[6..]) == -now
  {
    var l := "rust-" + IntToDecimal(now);
    assert l[5..] == IntToDecimal(now) && l[6..] == IntToDecimal(now)[1..];
    l
  }

  /** Two invoices created in different seconds get different labels. */
  lemma DefaultLabelInjective(now: int, other: int)
    requires DefaultLabel(now) == DefaultLabel(other)
    ensures now == other
  {
    assert DefaultLabel(now)[5..] == IntToDecimal(now);
    assert DefaultLabel(other)[5..] == IntToDecimal(other);
    IntToDecimalInjective(now, other);
  }

  /** The request `create_invoice` sends at time `now`: the amount unchanged
      as `msatoshi`, the time-based label, and the description or "rust".
      The caller's label is not used. */
  function CreateInvoiceRequest(c: ClnClient, msat: u64, invoiceLabel: Option<string>, desc: Option<string>, now: int): (req: Request)
    ensures req.verb == Post && req.macaroon.None? && req.body.Some?
    ensures c.url <= req.url && req.url[|c.url|..] == "/v1/invoice"
    ensures req.body.value.Object? && req.body.value.fields.Keys == {"msatoshi", "label", "description"}
    ensures Index(req.body.value, "msatoshi") == Number(msat)
    ensures Index(req.body.value, "description") == String(if desc.Some? then desc.value else "rust")
    ensures Index(req.body.value, "label") == String(DefaultLabel(now))
  {
    var payload := Object(map["msatoshi" := Number(msat), "label" := String(DefaultLabel(now)),
                              "description" := String(desc.GetOr("rust"))]);
    Request(Post, c.url + "/v1/invoice", None, Some(payload))
  }

  /** Whatever label the caller gives, the same request is sent. */
  lemma CreateInvoiceIgnoresLabel(c: ClnClient, msat: u64, invoiceLabel: Option<string>, other: Option<string>, desc: Option<string>, now: int)
    ensures CreateInvoiceRequest(c, msat, invoiceLabel, desc, now) == CreateInvoiceRequest(c, msat, other, desc, now)
  {
  }

  /** `create_invoice`: the `bolt11` string of the answer. Without the `cln`
      feature the operation fails before any request is sent. */
  function CreateInvoice(featureEnabled: bool, res: Result<Value, Error>): (r: Result<string, Error>)
    ensures !featureEnabled ==> r == Err(Message("CLN feature not enabled"))
    ensures featureEnabled && res.Err? ==> r == Err(res.error)
    ensures featureEnabled && res.Ok? ==> (r.Ok? <==> Index(res.value, "bolt11").String?)
    ensures featureEnabled && res.Ok? && r.Ok? ==> r.value == Index(res.value, "bolt11").s
    ensures featureEnabled && res.Ok? && r.Err? ==> r.error == Message("no bolt11")
  {
    if !featureEnabled then Err(Message("CLN feature not enabled"))
    else
      var v :- res;
      match AsStr(Index(v, "bolt11"))
      case Some(bolt11) => Ok(bolt11)
      case None => Err(Message("no bolt11"))
  }
}

=== FILE: config.dfy ===
/** The configuration record the factory reads, with the rules its derived
    deserializer applies to the configuration tree: required and defaulted
    keys, renamed keys and optional sections. */
module Config {
  import opened Wrappers
  import opened Json
  import opened Client

  /** `[node]`: the backend named by the free-form string under `type`. */
  datatype NodeConfig = NodeConfig(nodeType: string)

  /** `[lnd-grpc]`: `cert_hex` may be left out. */
  datatype LndGrpcConfig = LndGrpcConfig(host: string, macaroonHex: string, certHex: string)

  /** `[lnd-rest]`: all three keys are required; the certificate is a path. */
  datatype LndRestConfig = LndRestConfig(host: string, macaroonHex: string, certPath: string)

  /** `[cln]`: only the host. */
  datatype ClnConfig = ClnConfig(host: string)

  /** The whole file: `node` is required, each backend section is optional on
      its own. */
  datatype Settings = Settings(node: NodeConfig, lndGrpc: Option<LndGrpcConfig>,
                               lndRest: Option<LndRestConfig>, cln: Option<ClnConfig>)

  /** A required string key of a table. */
  function RequiredString(table: map<string, Value>, key: string): (r: Result<string, DeError>)
    ensures r.Ok? <==> key in table && table[key].String?
    ensures r.Ok? ==> r.value == table[key].s
    ensures key !in table ==> r == Err(MissingField(key))
    ensures key in table && !table[key].String? ==> r == Err(InvalidType(key))
  {
    if key !in table then Err(MissingField(key))
    else if table[key].String? then Ok(table[key].s)
    else Err(InvalidType(key))
  }

  /** A string key with `#[serde(default)]`: a missing key is the empty
      string, a present one must be a string. */
  function DefaultedString(table: map<string, Value>, key: string): (r: Result<string, DeError>)
    ensures key !in table ==> r == Ok("")
    ensures key in table ==> r == RequiredString(table, key)
  {
    if key !in table then Ok("") else RequiredString(table, key)
  }

  function DecodeNode(v: Value): (r: Result<NodeConfig, DeError>)
    ensures r.Ok? <==> v.Object? && "type" in v.fields && v.fields["type"].String?
    ensures r.Ok? ==> r.value.nodeType == v.fields["type"].s
  {
    if !v.Object? then Err(InvalidType("node"))
    else
      var nodeType :- RequiredString(v.fields, "type");
      Ok(NodeConfig(nodeType))
  }

  function DecodeLndGrpc(v: Value): (r: Result<LndGrpcConfig, DeError>)
    ensures r.Ok? ==> v.Object? && RequiredString(v.fields, "host") == Ok(r.value.host)
                      && RequiredString(v.fields, "macaroon_hex") == Ok(r.value.macaroonHex)
                      && DefaultedString(v.fields, "cert_hex") == Ok(r.value.certHex)
    ensures (v.Object? && RequiredString(v.fields, "host").Ok? && RequiredString(v.fields, "macaroon_hex").Ok?
             && DefaultedString(v.fields, "cert_hex").Ok?) ==> r.Ok?
  {
    if !v.Object? then Err(InvalidType("lnd-grpc"))
    else
      var host :- RequiredString(v.fields, "host");
      var macaroonHex :- RequiredString(v.fields, "macaroon_hex");
      var certHex :- DefaultedString(v.fields, "cert_hex");
      Ok(LndGrpcConfig(host, macaroonHex, certHex))
  }

  function DecodeLndRest(v: Value): (r: Result<LndRestConfig, DeError>)
    ensures r.Ok? ==> v.Object? && RequiredString(v.fields, "host") == Ok(r.value.host)
                      && RequiredString(v.fields, "macaroon_hex") == Ok(r.value.macaroonHex)
                      && RequiredString(v.fields, "cert_path") == Ok(r.value.certPath)
    ensures (v.Object? && RequiredString(v.fields, "host").Ok? && RequiredString(v.fields, "macaroon_hex").Ok?
             && RequiredString(v.fields, "cert_path").Ok?) ==> r.Ok?
  {
    if !v.Object? then Err(InvalidType("lnd-rest"))
    else
      var host :- RequiredString(v.fields, "host");
      var macaroonHex :- RequiredString(v.fields, "macaroon_hex");
      var certPath :- RequiredString(v.fields, "cert_path");
      Ok(LndRestConfig(host, macaroonHex, certPath))
  }

  function DecodeCln(v: Value): (r: Result<ClnConfig, DeError>)
    ensures r.Ok? <==> v.Object? && "host" in v.fields && v.fields["host"].String?
    ensures r.Ok? ==> r.value.host == v.fields["host"].s
  {
    if !v.Object? then Err(InvalidType("cln"))
    else
      var host :- RequiredString(v.fields, "host");
      Ok(ClnConfig(host))
  }

  /** An `Option` section: missing or null is `None`, anything else must
      decode. */
  function Section<T>(root: map<string, Value>, key: string, decode: Value -> Result<T, DeError>): (r: Result<Option<T>, DeError>)
    ensures key !in root || root[key] == Null ==> r == Ok(None)
    ensures key in root && root[key] != Null ==>
              (r.Ok? <==> decode(root[key]).Ok?) && (r.Ok? ==> r == Ok(Some(decode(root[key]).value)))
  {
    if key !in root || root[key] == Null then Ok(None)
    else
      var section :- decode(root[key]);
      Ok(Some(section))
  }

  /** `try_deserialize::<Settings>()` on the configuration tree. When several
      keys are at fault, the one reported is the first in the order `node`,
      `lnd-grpc`, `lnd-rest`, `cln`. */
  function DecodeSettings(root: Value): (r: Result<Settings, DeError>)
    ensures !root.Object? ==> r == Err(InvalidType(""))
    ensures root.Object? && "node" !in root.fields ==> r == Err(MissingField("node"))
    ensures r.Ok? <==> && root.Object? && "node" in root.fields && DecodeNode(root.fields["node"]).Ok?
                       && Section(root.fields, "lnd-grpc", DecodeLndGrpc).Ok?
                       && Section(root.fields, "lnd-rest", DecodeLndRest).Ok?
                       && Section(root.fields, "cln", DecodeCln).Ok?
    ensures r.Ok? ==> root.Object? && DecodeNode(root.fields["node"]) == Ok(r.value.node)
    ensures r.Ok? ==> (r.value.lndGrpc.None? <==> Index(root, "lnd-grpc") == Null)
    ensures r.Ok? ==> (r.value.lndRest.None? <==> Index(root, "lnd-rest") == Null)
    ensures r.Ok? ==> (r.value.cln.None? <==> Index(root, "cln") == Null)
    ensures r.Ok? && r.value.lndGrpc.Some? ==> DecodeLndGrpc(root.fields["lnd-grpc"]) == Ok(r.value.lndGrpc.value)
    ensures r.Ok? && r.value.lndRest.Some? ==> DecodeLndRest(root.fields["lnd-rest"]) == Ok(r.value.lndRest.value)
    ensures r.Ok? && r.value.cln.Some? ==> DecodeCln(root.fields["cln"]) == Ok(r.value.cln.value)
  {
    if !root.Object? then Err(InvalidType(""))
    else if "node" !in root.fields then Err(MissingField("node"))
    else
      var node :- DecodeNode(root.fields["node"]);
      var lndGrpc :- Section(root.fields, "lnd-grpc", DecodeLndGrpc);
      var lndRest :- Section(root.fields, "lnd-rest", DecodeLndRest);
      var cln :- Section(root.fields, "cln", DecodeCln);
      Ok(Settings(node, lndGrpc, lndRest, cln))
  }

  /** Keys other than the four the settings read, such as the `[api]` section
      the same file carries, have no effect on decoding. */
  lemma OtherKeysIgnored(fields: map<string, Value>, key: string, v: Value)
    requires key != "node" && key != "lnd-grpc" && key != "lnd-rest" && key != "cln"
    ensures DecodeSettings(Object(fields[key := v])) == DecodeSettings(Object(fields))
  {
    var more := fields[key := v];
    assert Section(more, "lnd-grpc", DecodeLndGrpc) == Section(fields, "lnd-grpc", DecodeLndGrpc);
    assert Section(more, "lnd-rest", DecodeLndRest) == Section(fields, "lnd-rest", DecodeLndRest);
    assert Section(more, "cln", DecodeCln) == Section(fields, "cln", DecodeCln);
  }

  /** The configuration tree that holds exactly `s`: absent sections and a
      `cert_hex` that is empty are left out. */
  function SettingsJson(s: Settings): Value {
    var root := map["node" := Object(map["type" := String(s.node.nodeType)])];
    var root := if s.lndGrpc.None? then root else
      var g := s.lndGrpc.value;
      var fields := map["host" := String(g.host), "macaroon_hex" := String(g.macaroonHex)];
      root["lnd-grpc" := Object(if g.certHex == "" then fields else fields["cert_hex" := String(g.certHex)])];
    var root := if s.lndRest.None? then root else
      var l := s.lndRest.value;
      root["lnd-rest" := Object(map["host" := String(l.host), "macaroon_hex" := String(l.macaroonHex),
                                   "cert_path" := String(l.certPath)])];
    var root := if s.cln.None? then root else root["cln" := Object(map["host" := String(s.cln.value.host)])];
    Object(root)
  }

  /** Every `Settings` value, with any combination of sections present, is
      read back from its configuration tree; a left-out `cert_hex` reads back
      as the empty string. */
  lemma SettingsRoundTrip(s: Settings)
    ensures DecodeSettings(SettingsJson(s)) == Ok(s)
  {
    var root := SettingsJson(s).fields;
    assert DecodeNode(root["node"]) == Ok(s.node);
    if s.lndGrpc.Some? {
      var g := s.lndGrpc.value;
      assert DecodeLndGrpc(root["lnd-grpc"]) == Ok(g);
    }
    if s.lndRest.Some? {
      assert DecodeLndRest(root["lnd-rest"]) == Ok(s.lndRest.value);
    }
    if s.cln.Some? {
      assert DecodeCln(root["cln"]) == Ok(s.cln.value);
    }
  }

  /** `cert_hex` may be left out of `[lnd-grpc]`; `cert_path` may not be left
      out of `[lnd-rest]`. */
  lemma CertDefaults(host: string, macaroonHex: string)
    ensures DecodeLndGrpc(Object(map["host" := String(host), "macaroon_hex" := String(macaroonHex)]))
              == Ok(LndGrpcConfig(host, macaroonHex, ""))
    ensures DecodeLndRest(Object(map["host" := String(host), "macaroon_hex" := String(macaroonHex)]))
              == Err(MissingField("cert_path"))
  {
  }
}

=== FILE: factory.dfy ===
/** `connect_from_config`: the backend named under `node.type` is built from
    its own section, and only from it. Loading the file is outside the model;
    its outcome is an input. */
module Factory {
  import opened Wrappers
  import opened Json
  import opened Client
  import opened Config
  import LndGrpc
  import LndRest
  import Cln

  /** The one adapter a successful connection yields. */
  datatype Driver =
    | GrpcDriver(grpc: LndGrpc.LndGrpcWrapper)
    | RestDriver(rest: LndRest.LndRestClient)
    | ClnDriver(cln: Cln.ClnClient)

  /** What the backends' constructors are given besides the configuration:
      whether the `lnd-grpc` feature is compiled in, what became of opening
      the gRPC channel and of the REST adapter's TLS set-up. */
  datatype Environment = Environment(grpcFeature: bool, grpcChannel: LndGrpc.ChannelSetup, restTls: LndRest.TlsSetup)

  predicate KnownNodeType(nodeType: string) {
    nodeType == "lnd-grpc" || nodeType == "lnd-rest" || nodeType == "cln"
  }

  /** The dispatch on `node.type`. */
  function Connect(settings: Settings, env: Environment): (r: Result<Driver, Error>)
    ensures !KnownNodeType(settings.node.nodeType) ==> r == Err(Message("Unsupported node type"))
    ensures r.Ok? ==> && (r.value.GrpcDriver? <==> settings.node.nodeType == "lnd-grpc")
                      && (r.value.RestDriver? <==> settings.node.nodeType == "lnd-rest")
                      && (r.value.ClnDriver? <==> settings.node.nodeType == "cln")
    ensures settings.node.nodeType == "lnd-grpc" && !env.grpcFeature ==>
              r == Err(Message("lnd-grpc feature not enabled"))
    ensures settings.node.nodeType == "lnd-grpc" && env.grpcFeature && settings.lndGrpc.None? ==>
              r == Err(Message("LND gRPC config missing"))
    ensures settings.node.nodeType == "lnd-grpc" && env.grpcFeature && settings.lndGrpc.Some? ==>
              var g := settings.lndGrpc.value;
              var w := LndGrpc.Connect(g.certHex, g.macaroonHex, g.host, env.grpcChannel);
              (r.Ok? <==> w.Ok?) && (r.Ok? ==> r.value.grpc == w.value) && (r.Err? ==> r.error == w.error)
    ensures settings.node.nodeType == "lnd-rest" && settings.lndRest.None? ==>
              r == Err(Message("LND REST config missing"))
    ensures settings.node.nodeType == "lnd-rest" && settings.lndRest.Some? ==>
              var l := settings.lndRest.value;
              var c := LndRest.New(l.host, l.macaroonHex, l.certPath, env.restTls);
              (r.Ok? <==> c.Ok?) && (r.Ok? ==> r.value.rest == c.value) && (r.Err? ==> r.error == c.error)
    ensures settings.node.nodeType == "cln" && settings.cln.None? ==> r == Err(Message("CLN config missing"))
    ensures settings.node.nodeType == "cln" && settings.cln.Some? ==>
              r == Ok(ClnDriver(Cln.New(settings.cln.value.host)))
  {
    var nodeType := settings.node.nodeType;
    if nodeType == "lnd-grpc" then
      if !env.grpcFeature then Err(Message("lnd-grpc feature not enabled"))
      else
        match settings.lndGrpc
        case None => Err(Message("LND gRPC config missing"))
        case Some(g) =>
          var w :- LndGrpc.Connect(g.certHex, g.macaroonHex, g.host, env.grpcChannel);
          Ok(GrpcDriver(w))
    else if nodeType == "lnd-rest" then
      match settings.lndRest
      case None => Err(Message("LND REST config missing"))
      case Some(l) =>
        var c :- LndRest.New(l.host, l.macaroonHex, l.certPath, env.restTls);
        Ok(RestDriver(c))
    else if nodeType == "cln" then
      match settings.cln
      case None => Err(Message("CLN config missing"))
      case Some(c) => Ok(ClnDriver(Cln.New(c.host)))
    else Err(Message("Unsupported node type"))
  }

  /** The section of the selected backend, as the dispatch sees it. */
  predicate SameSelection(s: Settings, t: Settings) {
    && s.node == t.node
    && (s.node.nodeType == "lnd-grpc" ==> s.lndGrpc == t.lndGrpc)
    && (s.node.nodeType == "lnd-rest" ==> s.lndRest == t.lndRest)
    && (s.node.nodeType == "cln" ==> s.cln == t.cln)
  }

  /** Selection depends on `node.type` and the selected section alone: the
      sections of other backends are ignored, present or not. */
  lemma SelectionIgnoresOtherSections(s: Settings, t: Settings, env: Environment)
    requires SameSelection(s, t)
    ensures Connect(s, env) == Connect(t, env)
  {
  }

  /** `connect_from_config` once the configuration tree is loaded: a failed
      load is passed on, then the tree is decoded into `Settings`, then the
      backend is connected. */
  function ConnectFromConfig(loaded: Result<Value, Error>, env: Environment): (r: Result<Driver, Error>)
    ensures loaded.Err? ==> r == Err(loaded.error)
    ensures loaded.Ok? && DecodeSettings(loaded.value).Err? ==>
              r == Err(Deserialize(DecodeSettings(loaded.value).error))
    ensures loaded.Ok? && DecodeSettings(loaded.value).Ok? ==> r == Connect(DecodeSettings(loaded.value).value, env)
  {
    var root :- loaded;
    match DecodeSettings(root)
    case Err(e) => Err(Deserialize(e))
    case Ok(settings) => Connect(settings, env)
  }

  /** A configuration that names CLN and holds every section connects to CLN
      with the CLN host, whatever the LND sections say. */
  lemma ClnSelectedAmongAll(s: Settings, env: Environment)
    requires s.node.nodeType == "cln" && s.lndGrpc.Some? && s.lndRest.Some? && s.cln.Some?
    ensures ConnectFromConfig(Ok(SettingsJson(s)), env) == Ok(ClnDriver(Cln.New(s.cln.value.host)))
  {
    SettingsRoundTrip(s);
  }

  /** The three adapters agree on `get_info`: a node that reports the same
      alias and identity key through each backend's own answer is described
      by the same `NodeInfo`. */
  lemma GetInfoAgrees(alias: string, pubkey: string)
    ensures LndRest.GetInfo(Ok(Object(map["alias" := String(alias), "identity_pubkey" := String(pubkey)])))
              == Ok(NodeInfo(alias, pubkey))
    ensures Cln.GetInfo(Ok(Object(map["alias" := String(alias), "id" := String(pubkey)])))
              == Ok(NodeInfo(alias, pubkey))
    ensures LndGrpc.GetInfo(true, Ok(LndGrpc.GetInfoResponse(alias, pubkey))) == Ok(NodeInfo(alias, pubkey))
  {
  }
}

=== FILE: hex.dfy ===
/** Base16 as the `hex` crate implements it (section 8 of RFC 4648): `Decode`
    accepts upper- and lower-case digits two per byte, `Encode` writes
    lower-case digits. The macaroon and the gRPC certificate pass through
    both. */
module Hex {
  import opened Wrappers

  type byte = n: int | 0 <= n < 256

  /** `hex::FromHexError`: a character that is not a hex digit (the first
      one, with its position), or an odd number of characters. */
  datatype HexError = InvalidHexCharacter(c: char, index: nat) | OddLength

  predicate IsHexDigit(c: char) {
    '0' <= c <= '9' || 'a' <= c <= 'f' || 'A' <= c <= 'F'
  }

  predicate IsLowerHexDigit(c: char) {
    '0' <= c <= '9' || 'a' <= c <= 'f'
  }

  function HexValue(c: char): (v: nat)
    requires IsHexDigit(c)
    ensures v < 16
  {
    if '0' <= c <= '9' then (c as int) - ('0' as int)
    else if 'a' <= c <= 'f' then (c as int) - ('a' as int) + 10
    else (c as int) - ('A' as int) + 10
  }

  function LowerHexDigit(v: nat): (c: char)
    requires v < 16
    ensures IsLowerHexDigit(c) && HexValue(c) == v
  {
    if v < 10 then (('0' as int) + v) as char else (('a' as int) + v - 10) as char
  }

  /** ASCII lower-casing of `A`..`F`; every other character is kept. */
  function LowerAscii(c: char): char {
    if 'A' <= c <= 'F' then (c as int - 'A' as int + 'a' as int) as char else c
  }

  function LowerString(s: string): (r: string)
    ensures |r| == |s| && forall i :: 0 <= i < |s| ==> r[i] == LowerAscii(s[i])
  {
    seq(|s|, i requires 0 <= i < |s| => LowerAscii(s[i]))
  }

  /** A well-formed hex string: an even number of hex digits. */
  predicate IsHex(s: string) {
    |s| % 2 == 0 && forall i :: 0 <= i < |s| ==> IsHexDigit(s[i])
  }

  /** `hex::encode`: two lower-case digits per byte, high nibble first. */
  function Encode(bytes: seq<byte>): (r: string)
    ensures |r| == 2 * |bytes|
    ensures forall i :: 0 <= i < |r| ==> IsLowerHexDigit(r[i])
    ensures forall k :: 0 <= k < |bytes| ==>
              r[2 * k] == LowerHexDigit(bytes[k] / 16) && r[2 * k + 1] == LowerHexDigit(bytes[k] % 16)
  {
    if bytes == [] then []
    else [LowerHexDigit(bytes[0] / 16), LowerHexDigit(bytes[0] % 16)] + Encode(bytes[1..])
  }

  /** The pairs of `s` from position `i` on, decoded left to right; the first
      character that is not a hex digit stops the decoding. */
  function DecodeFrom(s: string, i: nat): (r: Result<seq<byte>, HexError>)
    requires |s| % 2 == 0 && i <= |s| && i % 2 == 0
    ensures r.Ok? <==> forall j :: i <= j < |s| ==> IsHexDigit(s[j])
    ensures r.Ok? ==> 2 * |r.value| == |s| - i
    ensures r.Ok? ==> forall k :: 0 <= k < |r.value| ==>
              r.value[k] == 16 * HexValue(s[i + 2 * k]) + HexValue(s[i + 2 * k + 1])
    ensures r.Err? ==> && r.error.InvalidHexCharacter?
                       && i <= r.error.index < |s|
                       && s[r.error.index] == r.error.c
                       && !IsHexDigit(r.error.c)
                       && forall j :: i <= j < r.error.index ==> IsHexDigit(s[j])
    decreases |s| - i
  {
    if i == |s| then Ok([])
    else if !IsHexDigit(s[i]) then Err(InvalidHexCharacter(s[i], i))
    else if !IsHexDigit(s[i + 1]) then Err(InvalidHexCharacter(s[i + 1], i + 1))
    else
      match DecodeFrom(s, i + 2)
      case Ok(rest) => Ok([(16 * HexValue(s[i]) + HexValue(s[i + 1])) as byte] + rest)
      case Err(e) => Err(e)
  }

  /** `hex::decode`: an odd length is refused before any character is looked at. */
  function Decode(s: string): (r: Result<seq<byte>, HexError>)
    ensures r.Ok? <==> IsHex(s)
    ensures r == Err(OddLength) <==> |s| % 2 != 0
    ensures r.Ok? ==> 2 * |r.value| == |s|
    ensures r.Err? && r.error.InvalidHexCharacter? ==>
              && r.error.index < |s| && s[r.error.index] == r.error.c && !IsHexDigit(r.error.c)
              && forall j :: 0 <= j < r.error.index ==> IsHexDigit(s[j])
  {
    if |s| % 2 != 0 then Err(OddLength) else DecodeFrom(s, 0)
  }

  /** Decoding what was encoded gives the bytes back. */
  lemma DecodeEncode(bytes: seq<byte>)
    ensures Decode(Encode(bytes)) == Ok(bytes)
  {
    var e := Encode(bytes);
    assert IsHex(e);
    var d := Decode(e).value;
    assert |d| == |bytes|;
    forall k | 0 <= k < |bytes|
      ensures d[k] == bytes[k]
    {
      var hi, lo := bytes[k] / 16, bytes[k] % 16;
      assert HexValue(e[2 * k]) == hi && HexValue(e[2 * k + 1]) == lo;
      assert d[k] == 16 * hi + lo;
    }
    assert d == bytes;
    assert Decode(e) == Ok(d);
  }

  lemma NibblesOf(hi: nat, lo: nat)
    requires hi < 16 && lo < 16
    ensures (16 * hi + lo) / 16 == hi && (16 * hi + lo) % 16 == lo
  {
  }

  lemma LowerOfValue(c: char)
    requires IsHexDigit(c)
    ensures LowerHexDigit(HexValue(c)) == LowerAscii(c)
  {
  }

  /** Encoding what was decoded gives the input with `A`..`F` lowered. */
  lemma EncodeDecode(s: string)
    requires IsHex(s)
    ensures Encode(Decode(s).value) == LowerString(s)
  {
    var v := Decode(s).value;
    var e := Encode(v);
    forall j | 0 <= j < |s|
      ensures e[j] == LowerAscii(s[j])
    {
      var k := j / 2;
      assert v[k] == 16 * HexValue(s[2 * k]) + HexValue(s[2 * k + 1]);
      NibblesOf(HexValue(s[2 * k]), HexValue(s[2 * k + 1]));
      LowerOfValue(s[2 * k]);
      LowerOfValue(s[2 * k + 1]);
      assert j == 2 * k || j == 2 * k + 1;
    }
  }

  /** `hex::encode(hex::decode(s)?)`: the canonical lower-case spelling of a
      well-formed hex string. */
  function Normalize(s: string): (r: Result<string, HexError>)
    ensures r.Ok? <==> IsHex(s)
    ensures r.Err? ==> r == Err(Decode(s).error)
    ensures r.Ok? ==> r.value == LowerString(s) && Decode(r.value) == Decode(s)
  {
    match Decode(s)
    case Ok(bytes) =>
      EncodeDecode(s);
      DecodeEncode(bytes);
      Ok(Encode(bytes))
    case Err(e) => Err(e)
  }

  /** Normalizing a normalized string changes nothing. */
  lemma NormalizeIdempotent(s: string)
    requires Normalize(s).Ok?
    ensures Normalize(Normalize(s).value) == Normalize(s)
  {
    var bytes := Decode(s).value;
    DecodeEncode(bytes);
  }
}

=== FILE: json.dfy ===
/** The JSON values the REST backends answer with (serde_json's `Value`), the
    accessors the adapters read them through, and the shape of one HTTP
    request an adapter sends. */
module Json {
  import opened Wrappers

  /** Exclusive upper bound of Rust's `u64`. */
  const U64_BOUND: int := 0x1_0000_0000_0000_0000

  type u64 = n: int | 0 <= n < U64_BOUND

  /** Rust's `u16`, the width of a port number. */
  type u16 = n: int | 0 <= n < 0x1_0000

  /** A JSON value. Integers are kept exactly; a number written with a
      fraction or an exponent is a `Float`. An object maps each key to one
      value, as serde_json's map does. */
  datatype Value =
    | Null
    | Bool(b: bool)
    | Number(n: int)
    | Float(f: real)
    | String(s: string)
    | Array(items: seq<Value>)
    | Object(fields: map<string, Value>)

  /** `value["key"]`: the member under `key`, or `Null` when the key is
      missing or the value is not an object. */
  function Index(v: Value, key: string): (r: Value)
    ensures v.Object? && key in v.fields ==> r == v.fields[key]
    ensures r != Null ==> v.Object? && key in v.fields
  {
    if v.Object? && key in v.fields then v.fields[key] else Null
  }

  /** `value.get("key")`: like `Index`, but a missing member is `None`. */
  function Member(v: Value, key: string): (r: Option<Value>)
    ensures r.Some? <==> v.Object? && key in v.fields
    ensures r.Some? ==> r.value == Index(v, key)
  {
    if v.Object? && key in v.fields then Some(v.fields[key]) else None
  }

  /** `as_str`. */
  function AsStr(v: Value): (r: Option<string>)
    ensures r.Some? <==> v.String?
    ensures r.Some? ==> v == String(r.value)
  {
    if v.String? then Some(v.s) else None
  }

  /** `as_u64`: only an integer that fits in 64 unsigned bits. */
  function AsU64(v: Value): (r: Option<u64>)
    ensures r.Some? <==> v.Number? && 0 <= v.n < U64_BOUND
    ensures r.Some? ==> v == Number(r.value)
  {
    if v.Number? && 0 <= v.n < U64_BOUND then Some(v.n as u64) else None
  }

  /** `as_bool`. */
  function AsBool(v: Value): (r: Option<bool>)
    ensures r.Some? <==> v.Bool?
    ensures r.Some? ==> v == Bool(r.value)
  {
    if v.Bool? then Some(v.b) else None
  }

  /** `as_array`. */
  function AsArray(v: Value): (r: Option<seq<Value>>)
    ensures r.Some? <==> v.Array?
    ensures r.Some? ==> v == Array(r.value)
  {
    if v.Array? then Some(v.items) else None
  }

  datatype HttpMethod = Get | Post

  /** One HTTP request: the method, the full URL, the macaroon sent in the
      `Grpc-Metadata-macaroon` header (if any) and the JSON body (if any). */
  datatype Request = Request(verb: HttpMethod, url: string, macaroon: Option<string>, body: Option<Value>)
}

=== FILE: lnd_grpc.dfy ===
/** The LND gRPC adapter: how `connect` prepares the credentials it hands to
    the gRPC channel, and how the two operations it implements map their
    answers. The channel itself is outside the model; what became of opening
    it is an input. */
module LndGrpc {
  import opened Wrappers
  import opened Json
  import opened Text
  import opened Client
  import Hex

  /** Exclusive upper bound of the magnitude of Rust's `i64`. */
  const I64_BOUND: int := 0x8000_0000_0000_0000

  type i64 = n: int | -I64_BOUND <= n < I64_BOUND

  /** The arguments the channel is opened with: the certificate as lower-case
      hex (empty for the system's default trust), the macaroon as lower-case
      hex, and the node address unchanged. */
  datatype LndGrpcWrapper = LndGrpcWrapper(cert: string, macaroon: string, addr: string)

  /** What became of opening the gRPC channel. */
  datatype ChannelSetup = ChannelReady | ChannelFailed(reason: string)

  /** The certificate argument: nothing for a blank `cert_hex`, otherwise the
      untrimmed string decoded and re-encoded two lower-case digits per byte. */
  function CertArg(certHex: string): (r: Result<string, Error>)
    ensures IsBlank(certHex) ==> r == Ok("")
    ensures !IsBlank(certHex) ==> (r.Ok? <==> Hex.IsHex(certHex))
    ensures !IsBlank(certHex) && r.Err? ==> r.error == HexDecode(Hex.Decode(certHex).error)
    ensures !IsBlank(certHex) && r.Ok? ==> && r.value == Hex.LowerString(certHex)
                                           && |r.value| == 2 * |Hex.Decode(certHex).value|
                                           && Hex.Decode(r.value) == Hex.Decode(certHex)
  {
    if IsBlank(certHex) then Ok("")
    else
      match Hex.Normalize(certHex)
      case Ok(cert) => Ok(cert)
      case Err(e) => Err(HexDecode(e))
  }

  /** `LndGrpcWrapper::connect`: the macaroon is checked first, then the
      certificate, then the channel is opened. */
  function Connect(certHex: string, macaroonHex: string, addr: string, channel: ChannelSetup): (r: Result<LndGrpcWrapper, Error>)
    ensures !Hex.IsHex(macaroonHex) ==> r == Err(Context("Invalid macaroon hex: ", HexDecode(Hex.Decode(macaroonHex).error)))
    ensures Hex.IsHex(macaroonHex) && CertArg(certHex).Err? ==> r == Err(CertArg(certHex).error)
    ensures Hex.IsHex(macaroonHex) && CertArg(certHex).Ok? && channel.ChannelFailed? ==>
              r == Err(Message("LND gRPC connect failed: " + channel.reason))
    ensures r.Ok? <==> Hex.IsHex(macaroonHex) && (IsBlank(certHex) || Hex.IsHex(certHex)) && channel.ChannelReady?
    ensures r.Ok? ==> && r.value.macaroon == Hex.LowerString(macaroonHex)
                      && r.value.cert == CertArg(certHex).value
                      && r.value.addr == addr
  {
    match Hex.Normalize(macaroonHex)
    case Err(e) => Err(Context("Invalid macaroon hex: ", HexDecode(e)))
    case Ok(macaroon) =>
      var cert :- CertArg(certHex);
      match channel
      case ChannelFailed(e) => Err(Message("LND gRPC connect failed: " + e))
      case ChannelReady => Ok(LndGrpcWrapper(cert, macaroon, addr))
  }

  /** A certificate that is not blank but carries whitespace (a trailing
      newline, say) is refused: it is decoded untrimmed. With a valid
      macaroon the refusal is the hex error at or before the first
      whitespace character. */
  lemma PaddedCertRefused(certHex: string, macaroonHex: string, addr: string, channel: ChannelSetup, i: nat)
    requires i < |certHex| && IsWhitespace(certHex[i])
    requires !IsBlank(certHex)
    ensures Connect(certHex, macaroonHex, addr, channel).Err?
    ensures Hex.IsHex(macaroonHex) && |certHex| % 2 == 0 ==>
              var e := Connect(certHex, macaroonHex, addr, channel).error;
              e.HexDecode? && e.hexError.InvalidHexCharacter? && e.hexError.index <= i
  {
    assert !Hex.IsHexDigit(certHex[i]);
    assert !Hex.IsHex(certHex);
    var cert := CertArg(certHex);
    assert cert.Err?;
    if |certHex| % 2 == 0 {
      var d := Hex.Decode(certHex);
      assert d.Err? && d.error != Hex.OddLength;
      assert cert.error == HexDecode(d.error);
    }
  }

  /** The credentials handed to the channel are canonical: normalizing them
      again changes nothing, and they name the configured bytes. */
  lemma ConnectCanonical(certHex: string, macaroonHex: string, addr: string, channel: ChannelSetup)
    requires Hex.IsHex(macaroonHex) && (IsBlank(certHex) || Hex.IsHex(certHex)) && channel.ChannelReady?
    ensures var w := Connect(certHex, macaroonHex, addr, channel).value;
      && Hex.Normalize(w.macaroon) == Ok(w.macaroon)
      && Hex.Decode(w.macaroon) == Hex.Decode(macaroonHex)
      && (w.cert == "" || Hex.Normalize(w.cert) == Ok(w.cert))
  {
    Hex.NormalizeIdempotent(macaroonHex);
    if !IsBlank(certHex) {
      Hex.NormalizeIdempotent(certHex);
    }
  }

  /** The fields of lnrpc's `GetInfoResponse` the adapter reads. */
  datatype GetInfoResponse = GetInfoResponse(alias: string, identityPubkey: string)

  /** `get_info`: alias and identity key copied unchanged; without the
      `lnd-grpc` feature the operation always fails. */
  function GetInfo(featureEnabled: bool, res: Result<GetInfoResponse, Error>): (r: Result<NodeInfo, Error>)
    ensures !featureEnabled ==> r == Err(Message("lnd-grpc feature not enabled"))
    ensures featureEnabled && res.Err? ==> r == Err(res.error)
    ensures featureEnabled && res.Ok? ==> r.Ok? && r.value.alias == res.value.alias
                                          && r.value.identityPubkey == res.value.identityPubkey
  {
    if !featureEnabled then Err(Message("lnd-grpc feature not enabled"))
    else
      var info :- res;
      Ok(NodeInfo(info.alias, info.identityPubkey))
  }

  /** `msat as i64`: the same 64 bits read as a signed number, so amounts
      above `i64::MAX` turn negative. */
  function AsI64(msat: u64): (r: i64)
    ensures (r - msat) % U64_BOUND == 0
    ensures msat < I64_BOUND ==> r == msat
    ensures msat >= I64_BOUND ==> r < 0
  {
    if msat < I64_BOUND then msat else msat - U64_BOUND
  }

  /** Reading the signed amount back as unsigned gives the amount. */
  lemma AsI64RoundTrip(msat: u64)
    ensures (AsI64(msat) + U64_BOUND) % U64_BOUND == msat
  {
  }

  /** The fields of lnrpc's `Invoice` the adapter sets; every other field
      keeps its default. */
  datatype InvoiceRequest = InvoiceRequest(valueMsat: i64, memo: string)

  /** The invoice `create_invoice` asks LND to add; the label is not used. */
  function AddInvoiceRequest(msat: u64, invoiceLabel: Option<string>, desc: Option<string>): (req: InvoiceRequest)
    ensures req.memo == if desc.Some? then desc.value else "rust"
    ensures (req.valueMsat + U64_BOUND) % U64_BOUND == msat
  {
    AsI64RoundTrip(msat);
    InvoiceRequest(AsI64(msat), desc.GetOr("rust"))
  }

  /** The label has no effect on the invoice that is added. */
  lemma AddInvoiceIgnoresLabel(msat: u64, invoiceLabel: Option<string>, other: Option<string>, desc: Option<string>)
    ensures AddInvoiceRequest(msat, invoiceLabel, desc) == AddInvoiceRequest(msat, other, desc)
  {
  }

  /** The field of lnrpc's `AddInvoiceResponse` the adapter reads. */
  datatype AddInvoiceResponse = AddInvoiceResponse(paymentRequest: string)

  /** `create_invoice`: the payment request of the answer; without the
      `lnd-grpc` feature the operation always fails. */
  function CreateInvoice(featureEnabled: bool, res: Result<AddInvoiceResponse, Error>): (r: Result<string, Error>)
    ensures !featureEnabled ==> r == Err(Message("lnd-grpc feature not enabled"))
    ensures featureEnabled && res.Err? ==> r == Err(res.error)
    ensures featureEnabled && res.Ok? ==> r == Ok(res.value.paymentRequest)
  {
    if !featureEnabled then Err(Message("lnd-grpc feature not enabled"))
    else
      var added :- res;
      Ok(added.paymentRequest)
  }
}

=== FILE: lnd_rest.dfy ===
/** The LND REST adapter: construction from the configured host, macaroon and
    certificate path, the request each operation sends, and how each JSON
    answer becomes a contract value. */
module LndRest {
  import opened Wrappers
  import opened Json
  import opened Text
  import opened Client
  import Hex

  /** A constructed adapter: the base URL, the canonical macaroon sent with
      every request and the trimmed path of the pinned PEM certificate. */
  datatype LndRestClient = LndRestClient(url: string, macaroon: string, certPath: string)

  /** What became of reading the PEM file, parsing it and building the TLS
      client around it. */
  datatype TlsSetup = TlsReady | ReadFailed(reason: string) | PemRejected(reason: string) | BuildFailed(reason: string)

  /** `LndRestClient::new`: a blank certificate path is refused first, then a
      macaroon that is not hex, then a failing TLS set-up. */
  function New(host: string, macaroonHex: string, certPath: string, tls: TlsSetup): (r: Result<LndRestClient, Error>)
    ensures IsBlank(certPath) ==> r == Err(Message("cert_path is required"))
    ensures !IsBlank(certPath) && !Hex.IsHex(macaroonHex) ==> r == Err(HexDecode(Hex.Decode(macaroonHex).error))
    ensures r.Ok? <==> !IsBlank(certPath) && Hex.IsHex(macaroonHex) && tls.TlsReady?
    ensures r.Ok? ==> r.value.url == TrimEndMatches(host, '/')
    ensures r.Ok? ==> r.value.macaroon == Hex.LowerString(macaroonHex)
    ensures r.Ok? ==> r.value.certPath == Trim(certPath)
  {
    var path := Trim(certPath);
    if path == [] then Err(Message("cert_path is required"))
    else
      match Hex.Normalize(macaroonHex)
      case Err(e) => Err(HexDecode(e))
      case Ok(macaroon) =>
        match tls
        case ReadFailed(e) => Err(Message("Failed to read cert file '" + path + "': " + e))
        case PemRejected(e) => Err(Message("Invalid PEM certificate in '" + path + "': " + e))
        case BuildFailed(e) => Err(Message("Failed to build TLS client: " + e))
        case TlsReady => Ok(LndRestClient(TrimEndMatches(host, '/'), macaroon, path))
  }

  /** The stored macaroon is already canonical, names the same bytes as the
      configured one, and the stored URL has no trailing `/`. */
  lemma NewNormalizes(host: string, macaroonHex: string, certPath: string, tls: TlsSetup)
    requires !IsBlank(certPath) && Hex.IsHex(macaroonHex) && tls.TlsReady?
    ensures var c := New(host, macaroonHex, certPath, tls).value;
      && Hex.Normalize(c.macaroon) == Ok(c.macaroon)
      && Hex.Decode(c.macaroon) == Hex.Decode(macaroonHex)
      && (c.url == [] || c.url[|c.url| - 1] != '/')
  {
    Hex.NormalizeIdempotent(macaroonHex);
  }

  /** The requests an operation sends, in order. For the balance the channel
      request follows the wallet request and is sent only once the wallet
      answer has arrived; `GetBalance` ignores the channel answer otherwise. */
  function Requests(c: LndRestClient, op: Operation): (rs: seq<Request>)
    ensures |rs| == if op.GetBalance? then 2 else 1
    ensures forall i :: 0 <= i < |rs| ==> rs[i].macaroon == Some(c.macaroon) && c.url <= rs[i].url
    ensures forall i :: 0 <= i < |rs| ==> (rs[i].verb == Post <==> rs[i].body.Some?)
    ensures op.GetInfo? ==> rs[0].verb == Get && rs[0].url == c.url + "/v1/getinfo"
    ensures op.CreateInvoice? ==> && rs[0].verb == Post && rs[0].url == c.url + "/v1/invoices"
                                  && rs[0].body.value.Object? && rs[0].body.value.fields.Keys == {"value_msat", "memo"}
    ensures op.GetBalance? ==> && rs[0].verb == Get && rs[0].url == c.url + "/v1/balance/wallet"
                               && rs[1].verb == Get && rs[1].url == c.url + "/v1/balance/channels"
    ensures op.ListInvoices? ==> rs[0].verb == Get && c.url + "/v1/invoices?num_max_invoices=" <= rs[0].url
    ensures op.DecodeInvoice? ==> && rs[0].verb == Post && rs[0].url == c.url + "/v1/payreq"
                                  && rs[0].body == Some(Object(map["pay_req" := String(op.bolt11)]))
    ensures op.PayInvoice? ==> && rs[0].verb == Post && rs[0].url == c.url + "/v1/sendpaymentsync"
                               && rs[0].body == Some(Object(map["payment_request" := String(op.bolt11)]))
  {
    match op
    case GetInfo =>
      [Request(Get, c.url + "/v1/getinfo", Some(c.macaroon), None)]
    case CreateInvoice(msat, _, desc) =>
      var payload := Object(map["value_msat" := Number(msat), "memo" := String(desc.GetOr("rust"))]);
      [Request(Post, c.url + "/v1/invoices", Some(c.macaroon), Some(payload))]
    case GetBalance =>
      [Request(Get, c.url + "/v1/balance/wallet", Some(c.macaroon), None),
       Request(Get, c.url + "/v1/balance/channels", Some(c.macaroon), None)]
    case ListInvoices(limit) =>
      [Request(Get, c.url + "/v1/invoices?num_max_invoices=" + NatToDecimal(limit.GetOr(10)), Some(c.macaroon), None)]
    case DecodeInvoice(bolt11) =>
      [Request(Post, c.url + "/v1/payreq", Some(c.macaroon), Some(Object(map["pay_req" := String(bolt11)])))]
    case PayInvoice(bolt11) =>
      [Request(Post, c.url + "/v1/sendpaymentsync", Some(c.macaroon), Some(Object(map["payment_request" := String(bolt11)])))]
  }

  /** The invoice payload carries the amount unchanged and the description,
      or "rust" without one; the label has no effect on what is sent. */
  lemma CreateInvoiceIgnoresLabel(c: LndRestClient, msat: u64, invoiceLabel: Option<string>, other: Option<string>, desc: Option<string>)
    ensures Requests(c, Operation.CreateInvoice(msat, invoiceLabel, desc)) == Requests(c, Operation.CreateInvoice(msat, other, desc))
    ensures var body := Requests(c, Operation.CreateInvoice(msat, invoiceLabel, desc))[0].body.value;
      && Index(body, "value_msat") == Number(msat)
      && Index(body, "memo") == String(if desc.Some? then desc.value else "rust")
  {
  }

  /** The listing asks for `limit` invoices, or for 10 without one. */
  lemma ListInvoicesAsksForLimit(c: LndRestClient, limit: Option<u64>)
    ensures var url := Requests(c, Operation.ListInvoices(limit))[0].url;
      var prefix := c.url + "/v1/invoices?num_max_invoices=";
      && prefix <= url
      && AllDigits(url[|prefix|..])
      && DigitsValue(url[|prefix|..]) == (if limit.Some? then limit.value else 10)
  {
    var prefix := c.url + "/v1/invoices?num_max_invoices=";
    var url := Requests(c, Operation.ListInvoices(limit))[0].url;
    assert url[|prefix|..] == NatToDecimal(limit.GetOr(10));
    DecimalRoundTrip(limit.GetOr(10));
  }

  /** `get_info`: alias and identity key copied when they are strings,
      "LND" and "unknown" otherwise; a failed request is passed on. */
  function GetInfo(res: Result<Value, Error>): (r: Result<NodeInfo, Error>)
    ensures res.Err? ==> r == Err(res.error)
    ensures res.Ok? ==> r.Ok?
    ensures r.Ok? ==> r.value.alias == (if Index(res.value, "alias").String? then Index(res.value, "alias").s else "LND")
    ensures r.Ok? ==> r.value.identityPubkey == (if Index(res.value, "identity_pubkey").String?
                                                then Index(res.value, "identity_pubkey").s else "unknown")
  {
    var v :- res;
    Ok(NodeInfo(AsStr(Index(v, "alias")).GetOr("LND"), AsStr(Index(v, "identity_pubkey")).GetOr("unknown")))
  }

  /** `create_invoice`: the `payment_request` string of the answer. */
  function CreateInvoiceReply(res: Result<Value, Error>): (r: Result<string, Error>)
    ensures res.Err? ==> r == Err(res.error)
    ensures res.Ok? ==> (r.Ok? <==> Index(res.value, "payment_request").String?)
    ensures r.Ok? ==> r.value == Index(res.value, "payment_request").s
    ensures res.Ok? && r.Err? ==> r.error == Message("no payment_request")
  {
    var v :- res;
    match AsStr(Index(v, "payment_request"))
    case Some(bolt11) => Ok(bolt11)
    case None => Err(Message("no payment_request"))
  }

  /** `get_balance`: both amounts copied without conversion, 0 when missing
      or not an unsigned 64-bit integer. The wallet answer is read first, so
      its failure wins. */
  function GetBalance(wallet: Result<Value, Error>, channels: Result<Value, Error>): (r: Result<Balance, Error>)
    ensures wallet.Err? ==> r == Err(wallet.error)
    ensures wallet.Ok? && channels.Err? ==> r == Err(channels.error)
    ensures wallet.Ok? && channels.Ok? ==> r.Ok?
    ensures r.Ok? ==> r.value.onchainSat == (if AsU64(Index(wallet.value, "confirmed_balance")).Some?
                                            then Index(wallet.value, "confirmed_balance").n else 0)
    ensures r.Ok? ==> r.value.channelMsat == (if AsU64(Index(channels.value, "local_balance")).Some?
                                             then Index(channels.value, "local_balance").n else 0)
  {
    var w :- wallet;
    var onchainSat := AsU64(Index(w, "confirmed_balance")).GetOr(0);
    var ch :- channels;
    var channelMsat := AsU64(Index(ch, "local_balance")).GetOr(0);
    Ok(Balance(onchainSat, channelMsat))
  }

  /** Whatever the two endpoints report comes back unchanged, sat as sat and
      msat as msat. */
  lemma BalanceKeepsUnits(b: Balance)
    ensures GetBalance(Ok(Object(map["confirmed_balance" := Number(b.onchainSat)])),
                       Ok(Object(map["local_balance" := Number(b.channelMsat)]))) == Ok(b)
  {
  }

  /** One element of the `invoices` array as a contract `Invoice`. */
  function InvoiceOf(inv: Value): (r: Invoice)
    ensures r.state == "paid" <==> Index(inv, "settled") == Bool(true)
    ensures r.state == "paid" || r.state == "unpaid"
    ensures r.desc.None? <==> !Index(inv, "memo").String? || Index(inv, "memo").s == ""
    ensures r.desc.Some? ==> r.desc.value == Index(inv, "memo").s
    ensures r.bolt11 == AsStr(Index(inv, "payment_request"))
    ensures r.hash == (if Index(inv, "r_hash").String? then Index(inv, "r_hash").s else "")
    ensures r.amountMsat == (if AsU64(Index(inv, "value_msat")).Some? then Index(inv, "value_msat").n else 0)
  {
    Invoice(
      AsStr(Index(inv, "r_hash")).GetOr(""),
      AsU64(Index(inv, "value_msat")).GetOr(0),
      if AsBool(Index(inv, "settled")).GetOr(false) then "paid" else "unpaid",
      AsStr(Index(inv, "payment_request")),
      match AsStr(Index(inv, "memo"))
      case Some(s) => if s == "" then None else Some(s)
      case None => None)
  }

  /** How LND lists an invoice: the JSON `InvoiceOf` reads back. */
  function InvoiceJson(inv: Invoice): Value {
    var fields := map["r_hash" := String(inv.hash), "value_msat" := Number(inv.amountMsat),
                      "settled" := Bool(inv.state == "paid")];
    var fields := if inv.bolt11.Some? then fields["payment_request" := String(inv.bolt11.value)] else fields;
    var fields := if inv.desc.Some? then fields["memo" := String(inv.desc.value)] else fields;
    Object(fields)
  }

  /** Every invoice this backend can report survives the trip through its
      JSON form. */
  lemma InvoiceRoundTrip(inv: Invoice)
    requires inv.state == "paid" || inv.state == "unpaid"
    requires inv.desc != Some("")
    ensures InvoiceOf(InvoiceJson(inv)) == inv
  {
  }

  /** `list_invoices`: one invoice per element of the `invoices` array, in
      array order; no invoices when that member is not an array. */
  method ListInvoices(res: Result<Value, Error>) returns (r: Result<seq<Invoice>, Error>)
    ensures res.Err? ==> r == Err(res.error)
    ensures res.Ok? ==> r.Ok?
    ensures res.Ok? && !Index(res.value, "invoices").Array? ==> r.value == []
    ensures res.Ok? && Index(res.value, "invoices").Array? ==>
              var items := Index(res.value, "invoices").items;
              |r.value| == |items| && forall i :: 0 <= i < |items| ==> r.value[i] == InvoiceOf(items[i])
  {
    if res.Err? {
      return Err(res.error);
    }
    var invoices: seq<Invoice> := [];
    var list := AsArray(Index(res.value, "invoices"));
    if list.Some? {
      var items := list.value;
      for i := 0 to |items|
        invariant |invoices| == i
        invariant forall k :: 0 <= k < i ==> invoices[k] == InvoiceOf(items[k])
      {
        invoices := invoices + [InvoiceOf(items[i])];
      }
    }
    return Ok(invoices);
  }

  /** `decode_invoice`: no amount for a zero or missing `num_satoshis`,
      otherwise that many satoshi in millisatoshi (the `u64` product, which
      wraps in a release build). */
  function DecodeInvoice(res: Result<Value, Error>): (r: Result<DecodedInvoice, Error>)
    ensures res.Err? ==> r == Err(res.error)
    ensures res.Ok? ==> r.Ok?
    ensures r.Ok? ==> var sat := AsU64(Index(res.value, "num_satoshis")).GetOr(0);
              && (r.value.amountMsat.None? <==> sat == 0)
              && (r.value.amountMsat.Some? && sat * 1000 < U64_BOUND ==>
                    r.value.amountMsat.value == sat * 1000)
    ensures r.Ok? ==> r.value.desc == AsStr(Index(res.value, "description"))
    ensures r.Ok? ==> r.value.payee == AsStr(Index(res.value, "destination"))
  {
    var v :- res;
    var sat := AsU64(Index(v, "num_satoshis")).GetOr(0);
    var amountMsat := if sat == 0 then None else Some(WrappingMul(sat, 1000));
    Ok(DecodedInvoice(amountMsat, AsStr(Index(v, "description")), AsStr(Index(v, "destination"))))
  }

  /** The whole Bitcoin supply is 2.1e15 satoshi: every amount up to it comes
      back as an exact multiple of 1000 that divides back to the satoshi. */
  lemma DecodedAmountExact(v: Value, sat: nat)
    requires 0 < sat <= 2_100_000_000_000_000
    requires Index(v, "num_satoshis") == Number(sat)
    ensures var a := DecodeInvoice(Ok(v)).value.amountMsat;
      a.Some? && a.value % 1000 == 0 && a.value / 1000 == sat
  {
  }

  /** `pay_invoice` as written: any string under `payment_error`, the empty
      one included, fails the payment before hash and amount are read. */
  function PayInvoiceAsWritten(res: Result<Value, Error>): (r: Result<PaymentResult, Error>)
    ensures res.Err? ==> r == Err(res.error)
    ensures res.Ok? && Index(res.value, "payment_error").String? ==>
              r == Err(Message("Payment failed: " + Index(res.value, "payment_error").s))
    ensures res.Ok? && !Index(res.value, "payment_error").String? ==> r == PaymentOf(res.value)
  {
    var v :- res;
    match AsStr(Index(v, "payment_error"))
    case Some(err) => Err(Message("Payment failed: " + err))
    case None => PaymentOf(v)
  }

  /** `pay_invoice`, corrected: only a non-empty `payment_error` fails the
      payment. */
  function PayInvoice(res: Result<Value, Error>): (r: Result<PaymentResult, Error>)
    ensures res.Err? ==> r == Err(res.error)
    ensures res.Ok? && Index(res.value, "payment_error").String? && Index(res.value, "payment_error").s != "" ==>
              r == Err(Message("Payment failed: " + Index(res.value, "payment_error").s))
    ensures res.Ok? && !(Index(res.value, "payment_error").String? && Index(res.value, "payment_error").s != "") ==>
              r == PaymentOf(res.value)
  {
    var v :- res;
    match AsStr(Index(v, "payment_error"))
    case Some(err) => if err == "" then PaymentOf(v) else Err(Message("Payment failed: " + err))
    case None => PaymentOf(v)
  }

  /** The correction changes only the answer whose `payment_error` is the
      empty string; every other answer is read as before. */
  lemma CorrectionOnlyForEmptyError(res: Result<Value, Error>)
    requires res.Ok? ==> Index(res.value, "payment_error") != String("")
    ensures PayInvoice(res) == PayInvoiceAsWritten(res)
  {
  }

  /** The payment read from an answer that reports no error: hash and amount
      are required, in that order, the fee is optional. */
  function PaymentOf(v: Value): (r: Result<PaymentResult, Error>)
    ensures !Index(v, "payment_hash").String? ==> r == Err(Message("no payment_hash"))
    ensures Index(v, "payment_hash").String? && AsU64(Index(v, "amount_msat")).None? ==> r == Err(Message("no amount_msat"))
    ensures Index(v, "payment_hash").String? && AsU64(Index(v, "amount_msat")).Some? ==> r.Ok?
    ensures r.Ok? ==> && r.value.hash == Index(v, "payment_hash").s
                      && r.value.amountMsat == Index(v, "amount_msat").n
                      && r.value.feeMsat == AsU64(Index(v, "fee_msat"))
  {
    match AsStr(Index(v, "payment_hash"))
    case None => Err(Message("no payment_hash"))
    case Some(hash) =>
      match AsU64(Index(v, "amount_msat"))
      case None => Err(Message("no amount_msat"))
      case Some(amount) => Ok(PaymentResult(hash, amount, AsU64(Index(v, "fee_msat"))))
  }

  /** An answer to `sendpaymentsync` reporting the payment `p`, with
      `paymentError` under `payment_error`. */
  function PaymentJson(p: PaymentResult, paymentError: Value): Value {
    var fields := map["payment_error" := paymentError, "payment_hash" := String(p.hash),
                      "amount_msat" := Number(p.amountMsat)];
    Object(if p.feeMsat.Some? then fields["fee_msat" := Number(p.feeMsat.value)] else fields)
  }

  /** A successful payment is read back exactly, whether the answer's error
      is null or empty; as written, the empty error string turns
      the same successful payment into a failure. */
  lemma EmptyPaymentErrorIsSuccess(p: PaymentResult)
    ensures PayInvoice(Ok(PaymentJson(p, Null))) == Ok(p)
    ensures PayInvoice(Ok(PaymentJson(p, String("")))) == Ok(p)
    ensures PayInvoiceAsWritten(Ok(PaymentJson(p, String("")))) == Err(Message("Payment failed: "))
  {
    assert "Payment failed: " + "" == "Payment failed: ";
  }
}

=== FILE: text.dfy ===
/** The pieces of Rust's string library the core relies on: `trim`,
    `trim_end_matches`, decimal formatting of integers and parsing a `u16`. */
module Text {
  import opened Wrappers
  import opened Json

  /** `char::is_whitespace`: the characters with the Unicode White_Space
      property. */
  predicate IsWhitespace(c: char) {
    || '\U{0009}' <= c <= '\U{000D}'
    || c == ' '
    || c == '\U{0085}'
    || c == '\U{00A0}'
    || c == '\U{1680}'
    || '\U{2000}' <= c <= '\U{200A}'
    || c == '\U{2028}'
    || c == '\U{2029}'
    || c == '\U{202F}'
    || c == '\U{205F}'
    || c == '\U{3000}'
  }

  /** `trim_start`: drops the leading whitespace, keeping the rest as a suffix. */
  function TrimStart(s: string): (r: string)
    ensures |r| <= |s| && r == s[|s| - |r|..]
    ensures r == [] || !IsWhitespace(r[0])
    ensures forall i :: 0 <= i < |s| - |r| ==> IsWhitespace(s[i])
    decreases |s|
  {
    if s == [] || !IsWhitespace(s[0]) then s else TrimStart(s[1..])
  }

  /** `trim_end`: drops the trailing whitespace, keeping the rest as a prefix. */
  function TrimEnd(s: string): (r: string)
    ensures r <= s
    ensures r == [] || !IsWhitespace(r[|r| - 1])
    ensures forall i :: |r| <= i < |s| ==> IsWhitespace(s[i])
    decreases |s|
  {
    if s == [] || !IsWhitespace(s[|s| - 1]) then s else TrimEnd(s[..|s| - 1])
  }

  /** `r` is the part of `s` starting at `i`, with only whitespace before
      and after it. */
  predicate SliceBetweenWhitespace(s: string, i: nat, r: string) {
    && i + |r| <= |s| && r == s[i..i + |r|]
    && (forall k :: 0 <= k < i ==> IsWhitespace(s[k]))
    && (forall k :: i + |r| <= k < |s| ==> IsWhitespace(s[k]))
  }

  /** `trim`: whitespace dropped at both ends. The result is a slice of `s`
      with nothing but whitespace before and after it. */
  function Trim(s: string): (r: string)
    ensures r == [] || (!IsWhitespace(r[0]) && !IsWhitespace(r[|r| - 1]))
    ensures exists i: nat :: SliceBetweenWhitespace(s, i, r)
  {
    TrimIsSlice(s);
    TrimStart(TrimEnd(s))
  }

  /** What `TrimStart` leaves of `TrimEnd(s)` sits in `s` right after the
      leading whitespace. */
  lemma TrimIsSlice(s: string)
    ensures SliceBetweenWhitespace(s, |TrimEnd(s)| - |TrimStart(TrimEnd(s))|, TrimStart(TrimEnd(s)))
  {
    var e := TrimEnd(s);
    SuffixOfPrefix(s, e, TrimStart(e));
  }

  /** A suffix `r` of a prefix `e` of `s`, where whitespace alone was cut
      from both, lies between whitespace in `s`. */
  lemma SuffixOfPrefix(s: string, e: string, r: string)
    requires e <= s && (forall k :: |e| <= k < |s| ==> IsWhitespace(s[k]))
    requires |r| <= |e| && r == e[|e| - |r|..]
    requires forall k :: 0 <= k < |e| - |r| ==> IsWhitespace(e[k])
    ensures SliceBetweenWhitespace(s, |e| - |r|, r)
  {
    var i := |e| - |r|;
    forall k | 0 <= k < i
      ensures IsWhitespace(s[k])
    {
      assert s[k] == e[k];
    }
    assert r == s[i..i + |r|] by {
      assert e == s[..|e|];
    }
  }

  /** `s.trim().is_empty()`: every character is whitespace. */
  predicate IsBlank(s: string)
    ensures IsBlank(s) <==> forall i :: 0 <= i < |s| ==> IsWhitespace(s[i])
  {
    BlankIffAllWhitespace(s);
    Trim(s) == []
  }

  /** A string trims to nothing exactly when every character is whitespace. */
  lemma BlankIffAllWhitespace(s: string)
    ensures Trim(s) == [] <==> forall i :: 0 <= i < |s| ==> IsWhitespace(s[i])
  {
    var e := TrimEnd(s);
    assert forall k :: 0 <= k < |e| ==> e[k] == s[k];
    assert Trim(s) == TrimStart(e);
  }

  /** Trimming a trimmed string changes nothing. */
  lemma TrimIdempotent(s: string)
    ensures Trim(Trim(s)) == Trim(s)
  {
  }

  /** `trim_end_matches(c)`: every trailing `c` removed; what remains is a
      prefix that does not end in `c`, and only `c`s were cut off. */
  function TrimEndMatches(s: string, c: char): (r: string)
    ensures r <= s
    ensures r == [] || r[|r| - 1] != c
    ensures forall i :: |r| <= i < |s| ==> s[i] == c
    decreases |s|
  {
    if s == [] || s[|s| - 1] != c then s else TrimEndMatches(s[..|s| - 1], c)
  }

  /** The three properties above determine `TrimEndMatches` completely: any
      prefix that does not end in `c` and is followed only by `c`s is it. */
  lemma TrimEndMatchesUnique(s: string, c: char, p: string)
    requires p <= s
    requires p == [] || p[|p| - 1] != c
    requires forall i :: |p| <= i < |s| ==> s[i] == c
    ensures p == TrimEndMatches(s, c)
  {
    var r := TrimEndMatches(s, c);
    assert forall k :: 0 <= k < |r| ==> r[k] == s[k];
    assert forall k :: 0 <= k < |p| ==> p[k] == s[k];
  }

  /** Stripping the trailing `c`s twice is the same as once. */
  lemma TrimEndMatchesIdempotent(s: string, c: char)
    ensures TrimEndMatches(TrimEndMatches(s, c), c) == TrimEndMatches(s, c)
  {
  }

  predicate IsAsciiDigit(c: char) {
    '0' <= c <= '9'
  }

  predicate AllDigits(s: string) {
    forall i :: 0 <= i < |s| ==> IsAsciiDigit(s[i])
  }

  function DigitChar(d: nat): (c: char)
    requires d < 10
    ensures IsAsciiDigit(c)
  {
    (('0' as int) + d) as char
  }

  function DigitValue(c: char): (d: nat)
    requires IsAsciiDigit(c)
    ensures d < 10 && DigitChar(d) == c
  {
    (c as int) - ('0' as int)
  }

  /** The number a string of decimal digits denotes. */
  function DigitsValue(s: string): nat
    requires AllDigits(s)
  {
    if s == [] then 0 else 10 * DigitsValue(s[..|s| - 1]) + DigitValue(s[|s| - 1])
  }

  /** `Display` for an unsigned integer: decimal digits, no leading zero. */
  function NatToDecimal(n: nat): (r: string)
    ensures |r| > 0 && AllDigits(r)
    ensures |r| > 1 ==> r[0] != '0'
    decreases n
  {
    if n < 10 then [DigitChar(n)] else NatToDecimal(n / 10) + [DigitChar(n % 10)]
  }

  /** Reading back the digits `NatToDecimal` writes gives the number. */
  lemma {:induction false} DecimalRoundTrip(n: nat)
    ensures DigitsValue(NatToDecimal(n)) == n
    decreases n
  {
    if n >= 10 {
      DecimalRoundTrip(n / 10);
      var r := NatToDecimal(n);
      assert r[..|r| - 1] == NatToDecimal(n / 10);
    }
  }

  /** A non-empty digit string without a leading zero is the decimal text of
      its own value. */
  lemma {:induction false} CanonicalDigits(t: string)
    requires t != [] && AllDigits(t) && (|t| == 1 || t[0] != '0')
    ensures NatToDecimal(DigitsValue(t)) == t
    decreases |t|
  {
    if |t| > 1 {
      var p := t[..|t| - 1];
      var last := t[|t| - 1];
      assert AllDigits(p) && p[0] == t[0];
      CanonicalDigits(p);
      assert DigitsValue(p) >= 1;
      var n := DigitsValue(t);
      assert n == 10 * DigitsValue(p) + DigitValue(last);
      assert n / 10 == DigitsValue(p) && n % 10 == DigitValue(last);
      assert t == p + [last];
    }
  }

  /** `Display` for a signed integer: a minus sign before a negative one. */
  function IntToDecimal(i: int): (r: string)
    ensures |r| > 0
    ensures i < 0 <==> r[0] == '-'
    ensures i >= 0 ==> AllDigits(r) && DigitsValue(r) == i
    ensures i < 0 ==> AllDigits(r[1..]) && DigitsValue(r[1..]) == -i
  {
    if i < 0 then
      DecimalRoundTrip(-i);
      var r := "-" + NatToDecimal(-i);
      assert r[1..] == NatToDecimal(-i);
      r
    else
      DecimalRoundTrip(i);
      NatToDecimal(i)
  }

  /** Different integers are written differently. */
  lemma IntToDecimalInjective(a: int, b: int)
    requires IntToDecimal(a) == IntToDecimal(b)
    ensures a == b
  {
  }

  /** `str::parse::<u16>`: an optional `+`, then at least one ASCII digit,
      and a value below 65536. No sign `-`, no whitespace. */
  function ParseU16(s: string): (r: Option<u16>)
    ensures r.Some? ==> |s| > 0 && (IsAsciiDigit(s[0]) || s[0] == '+')
    ensures r.Some? ==> forall i :: 0 < i < |s| ==> IsAsciiDigit(s[i])
    ensures var d := if |s| > 0 && s[0] == '+' then s[1..] else s;
              r.Some? <==> d != [] && AllDigits(d) && DigitsValue(d) < 65536
    ensures var d := if |s| > 0 && s[0] == '+' then s[1..] else s;
              r.Some? ==> AllDigits(d) && r.value == DigitsValue(d)
  {
    if s == [] then None
    else
      var digits := if s[0] == '+' then s[1..] else s;
      if digits == [] || !AllDigits(digits) then None
      else if DigitsValue(digits) < 65536 then Some(DigitsValue(digits) as u16)
      else None
  }

  /** Every port written in decimal, with or without a `+`, parses back to
      itself. */
  lemma ParseU16Decimal(p: u16)
    ensures ParseU16(NatToDecimal(p)) == Some(p)
    ensures ParseU16("+" + NatToDecimal(p)) == Some(p)
  {
    DecimalRoundTrip(p);
    assert ("+" + NatToDecimal(p))[1..] == NatToDecimal(p);
  }
}

=== FILE: wrappers.dfy ===
/** Option and Result, the two failure-carrying shapes the Rust code uses
    (`Option<T>` and `anyhow::Result<T>`). */
module Wrappers {

  datatype Option<+T> = None | Some(value: T) {

    /** `unwrap_or`: the carried value, or the default when there is none. */
    function GetOr(default: T): T {
      match this
      case Some(v) => v
      case None => default
    }
  }

  datatype Result<+T, +E> = Ok(value: T) | Err(error: E) {

    /** Makes `:-` behave like Rust's `?`: an error is returned unchanged. */
    predicate IsFailure() {
      Err?
    }

    function PropagateFailure<U>(): Result<U, E>
      requires Err?
    {
      Err(error)
    }

    function Extract(): T
      requires Ok?
    {
      value
    }
  }
}
